=== FILE: README.md ===
# Braiinybear admin: verified model of the decision logic

The Braiinybear admin is a Next.js back-office for a training provider. It has course, blog and
video editors, a roster of online applicants, and a staff panel whose members have one of six
roles (ADMIN, SALES, TECHNICAL, HR, MEDIA, EMPLOYEE). This project models the parts of it
that make decisions, as immutable Dafny datatypes and pure functions, and proves what those
decisions guarantee:

- the **route gate** (`middleware.ts`): which paths are public, when a visitor is sent to
  `/login`, and how a non-admin who opens the `/admin` area is sent to their own dashboard;
- **sign-in** (`lib/auth.ts`): credential checks, and the jwt/session callbacks that carry the
  member's id and role into the token;
- the **staff directory** (`/api/management`, `/api/management/update-role`): registration with
  its validation chain, the admin-only listing, and the ordered checks of a role change;
- the **course endpoints**: create with defaults and trimming, the allow-listed bulk edit, and
  bulk delete with its count;
- **blog** search/ordering and creation with slug generation, and the **online registration**
  intake form;
- the **CORS header** decision (`lib/cors.ts`);
- the **client list state** of the applicant list and the staff panel: filtering, selection
  toggles, and the local updates made after the server answers.

Each database table is a `map<Id, Record>`. Its unique columns are enforced by an insert that
fails, and the handlers turn that failure into their catch-all 500. Request bodies are records
of `Option` fields, because any JSON field may be missing. JavaScript truthiness of a string
field is `Http.Truthy`: the field is present and not empty. Each handler that
touches a store returns `Http.Outcome`, which holds the reply (status, message, payload) and the
store after the call. So "the store is unchanged" is something the contracts can state. Two
handlers have no store to change and return a bare `Http.Reply`: `Blogs.CreateBlog` and
`ManagementApi.ListStaff`.

Modules follow the source: `Middleware`, `Auth`, `StaffStore`, `Email`, `ManagementApi`,
`UpdateRole`, `Courses`, `Blogs`, `OnlineRegistration`, `Cors`, `RegistrationsPage` and
`ManagementPage`. Four helper modules sit beside them. `Wrappers` holds Option and Result.
`Http` holds replies, status codes and the `Id` key type shared by every table. `Strings`
holds JavaScript's `\s`, `trim`, `startsWith`, `includes` and an ASCII `toLowerCase`. `Seqs`
holds `Array.prototype.filter`, the subsequence relation, and the counting facts about them.

Three facts about the code shape the model:

- A duplicate phone or Aadhaar number in an online registration is not answered with a
  conflict status. It falls into the handler's catch and gets 500 "Registration failed".
- The site root does no per-role dispatch. `/` is only a public path of the gate.
- Staff deletion and the applicant delete endpoint are called by the pages, but their handlers
  are not part of this model. The pages' own guards are modelled.

## Model

| member | source | states |
|---|---|---|
| Middleware.Gate | middleware.ts:6-67 | Public paths always pass. A protected path without a token is sent to `/login`. The request passes exactly when the path is public, or a token is present and the path is outside `/admin` or the role claim is ADMIN. A non-admin in `/admin` is sent to the landing path of their role. A redirect never points at the requested path. |
| Middleware.LandingPath | middleware.ts:39-59 | The redirect target is always one of `/sales`, `/technical`, `/hr`, `/media`, `/employee` or `/login`. Any role other than the five staff roles, a missing one included, goes to `/login`. |
| Middleware.LandingIsRoleDashboard | middleware.ts:41-59 | Each of the five non-admin roles SALES, TECHNICAL, HR, MEDIA and EMPLOYEE is sent to the dashboard named by its own role in lower case: `/sales`, `/technical`, `/hr`, `/media`, `/employee`. |
| Middleware.LandingPathsDistinct | middleware.ts:41-59 | Each of the five non-admin roles has its own landing path, and none of them is `/login`. |
| Middleware.EveryStaffRoleHasLanding | middleware.ts:41-59 | Every stored role other than ADMIN maps to a dashboard, not to `/login`. The switch covers the whole role enum. |
| Middleware.RedirectTargetPasses | middleware.ts:26-63 | Whatever page the gate redirects to is let through with the same token, so a redirect never loops. |
| Middleware.GateSeesOnlyRole | middleware.ts:7-66 | Two tokens that agree on presence and on the role claim get the same decision, whatever their other claims. |
| Middleware.AdministratorIsGated | middleware.ts:33-43 | The admin check is a raw prefix test: `/administrator` with a SALES token is redirected to `/sales`. |
| Middleware.SignedInMemberAtAdminArea | middleware.ts:33-63 | After `authorize` and the jwt callback, a member reaches `/admin…` exactly when their stored role is ADMIN. Otherwise they are redirected to the landing path of their stored role. |
| Auth.Authorize | lib/auth.ts:84-108 | A missing name or password fails with "Missing credentials" before any lookup. Sign-in succeeds exactly when a stored member has that name and the password matches their hash. It then returns that member's id, name, email and role. Every failure is one of the three source errors. |
| Auth.Jwt | lib/auth.ts:117-123 | With a user, the token takes the user's role and id. Without one, the token comes back unchanged. Name and email claims are never touched. |
| Auth.SessionOf | lib/auth.ts:125-131 | The session user takes the token's role and id only when the session has a user and the token's role is truthy. Otherwise the session is returned as it was. |
| Auth.RoleFrozenAfterSignIn | lib/auth.ts:117-123 | However many refreshes follow sign-in, the token keeps the role it got at sign-in. This is a direct consequence of the jwt callback leaving the token alone when no user is passed. |
| StaffStore.ParseRole | app/admin/management/page.tsx:33 | Only the six role names parse, and each parses back to its own name. |
| StaffStore.ParseRoleName | app/admin/management/page.tsx:33 | Parsing a role's name gives back that role. |
| StaffStore.Insert | app/api/management/route.ts:87-100 | A create succeeds exactly when the id, the name and the email are all unused. On success it adds only the new record and keeps the table valid: keys are ids, names and emails are unique. |
| StaffStore.FindByName | lib/auth.ts:89-93 | The lookup by the unique name finds a record exactly when one has that name, and the record it returns is a stored one. |
| Email.EmailCheckIsPattern | app/api/management/route.ts:44-54 | Two definitions agree. One is the step-by-step check: exactly one `@`, no whitespace, a non-empty local part, and a `.` that is neither first nor last after the `@`. The other is the regular expression's own structure: three `[^\s@]+` runs joined by `@` and `.`. |
| ManagementApi.Register | app/api/management/route.ts:27-127 | A missing field gives 400 before any other check. A bad email or short password gives 400. An existing email gives 409. 201 is returned exactly when every check passes and the name and id are free. The new record is then an EMPLOYEE with the given hash. Every non-201 leaves the store unchanged. |
| ManagementApi.RegisteredAsEmployee | app/api/management/route.ts:86-93 | A newly registered record always has the EMPLOYEE role. |
| ManagementApi.RegisterKeepsStoreValid | app/api/management/route.ts:67-100 | Registration keeps the staff table's key and uniqueness invariants. |
| ManagementApi.PasswordBoundary | app/api/management/route.ts:56-65 | A five-character password is refused with 400. A six-character one is accepted. |
| ManagementApi.Profiles | app/api/management/route.ts:156-164 | The listing holds exactly the id, name, email and role of every stored member. A Profile has no password. |
| ManagementApi.ListStaff | app/api/management/route.ts:129-173 | The list is returned exactly when the token role or the server-session role is ADMIN. Otherwise the reply is 403 with no data. |
| UpdateRole.ChangeRole | app/api/management/update-role/route.ts:21-116 | A missing field gives 400. 200 is returned exactly when the actor exists and is ADMIN, the target exists and is not the actor, and the role is an enum value. On success only the target's role changes: every other record and field, and the key set, are kept. The payload is the target's id, name, email and new role. Any failure leaves the store unchanged. |
| UpdateRole.ActorChecked | app/api/management/update-role/route.ts:40-60 | An unknown actor gets 404, whatever the role asked for. An actor whose stored role is not ADMIN gets 403. |
| UpdateRole.TargetChecked | app/api/management/update-role/route.ts:61-73 | Once the actor is a stored ADMIN, an unknown target gets 404 "User not found". |
| UpdateRole.NoSelfChange | app/api/management/update-role/route.ts:31-84 | Acting on oneself never changes the store. An ADMIN gets 400 for any requested role. A non-admin gets 403, because the role check comes before the self check. |
| UpdateRole.ChangeRoleKeepsStoreValid | app/api/management/update-role/route.ts:85-89 | A role change keeps the staff table's key and uniqueness invariants. |
| Courses.CreateCourse | app/api/courses/create/route.ts:16-60 | A course is created exactly when title and image are present, not blank after trimming, and the new id is free. The reply is 400 exactly when the title is present and either it is blank, or the image is present and blank. A blank title is refused before the image is read, so a blank title with a missing image gives 400. A missing title gives 500, because it cannot be trimmed, and so does a missing image after a non-blank title. Every stored field is the trimmed input. A missing optional field is stored as "" and a missing status as "Ongoing". A failure leaves the store unchanged. |
| Courses.StatusNotValidated | app/api/courses/create/route.ts:28-48 | Whether a course is created never depends on its status: no enumeration is checked. |
| Courses.AllowedOnly | app/api/courses/bulk-edit/route.ts:117-123 | The filtered map's keys are among totalFee, duration, status and category. Every allowed key of the input is kept with its value, empty strings included. |
| Courses.ApplyFields | app/api/courses/bulk-edit/route.ts:133-140 | Each of the four fields takes the filtered value when one is given and keeps its old value otherwise. No other field of the course changes. |
| Courses.Matched | app/api/courses/bulk-edit/route.ts:142-145 | The counted courses are exactly the stored ones whose id is listed. There are no more of them than listed ids. |
| Courses.BulkEdit | app/api/courses/bulk-edit/route.ts:95-153 | A non-array or empty id list gives 400. So do missing or empty updates, and updates with no allowed key. Every 400 leaves the store unchanged. On success every listed course gets the same filtered fields and unlisted courses are untouched. `updatedCount` is the number of listed courses that exist. A non-empty id list with at least one allowed update key always succeeds with 200. |
| Courses.ForgedFieldDropped | app/api/courses/bulk-edit/route.ts:117-130 | `{status: "Ongoing", bogusField: "x"}` succeeds and changes only the status of each listed course. |
| Courses.BulkDelete | app/api/courses/bulk-delete/route.ts:4-36 | A non-array or empty id list gives 400 and changes nothing. Otherwise no listed course remains and every unlisted one is untouched. `deletedCount` is the number of records removed, at most the number of ids. |
| Courses.BulkDeleteIdempotent | app/api/courses/bulk-delete/route.ts:17-28 | Sending the same bulk delete again leaves the store unchanged and reports 0. |
| Strings.Trim | app/api/courses/create/route.ts:40-50 | `trim` gives a substring of its input with no whitespace at either end. Everything removed around it is whitespace. |
| Strings.TrimIdempotent | app/api/courses/create/route.ts:40-50 | Trimming a trimmed value changes nothing. |
| Strings.TrimBlank | app/api/courses/create/route.ts:32 | A value trims to "" exactly when it is all whitespace. |
| Blogs.CollapseSpaces | app/api/blogs/route.ts:42 | The result has no whitespace, is no longer than the input, and holds only `-` or characters of the input. |
| Blogs.CollapseRun | app/api/blogs/route.ts:42 | A whitespace run between a space-free word and a rest becomes exactly one `-`. |
| Blogs.StripNonWord | app/api/blogs/route.ts:43 | The result is a subsequence of the input holding only word characters and `-`, and every such character of the input appears in it. |
| Blogs.StripNonWordCounts | app/api/blogs/route.ts:43 | Each word character and `-` occurs in the stripped string exactly as often as in the input; every other character occurs zero times. |
| Blogs.SlugOfSlugChars | app/api/blogs/route.ts:40-43 | A title made only of `[a-z0-9_-]` characters is its own slug. |
| Blogs.Slug | app/api/blogs/route.ts:40-43 | Every slug character is in `[a-z0-9_-]`. A slug has no whitespace and is no longer than the title. |
| Blogs.SlugIdempotent | app/api/blogs/route.ts:40-43 | The slug of a slug is the slug itself. |
| Blogs.SortNewestFirst | app/api/blogs/route.ts:18-23 | The result is ordered by `createdAt`, descending, and is a permutation of the input. |
| Blogs.SearchBlogs | app/api/blogs/route.ts:5-25 | The result is newest first. It holds exactly the blogs whose title contains the search text, ignoring case, each as often as it occurs in the input. An empty search returns all blogs. |
| Blogs.CreateBlog | app/api/blogs/route.ts:28-55 | A missing title, content or image gives 400 and creates nothing. Otherwise the blog stores the title, content, image and excerpt as sent, with the slug derived from the title. |
| OnlineRegistration.ParsePayment | app/api/online-registration/route.ts:18 | Only PENDING, PAID and FAILED are payment statuses. |
| OnlineRegistration.Submit | app/api/online-registration/route.ts:21-87 | A missing required field or empty marksheets gives 400 and changes nothing. A complete form gives 200 or 500 "Registration failed". It gets 200 exactly when the id is free, no stored row has the same phone or Aadhaar number, and the payment status is absent or an enum value. The stored row holds every field of the form as sent. A missing payment status becomes PENDING and a given one is kept. |
| OnlineRegistration.OptionalFieldsIgnored | app/api/online-registration/route.ts:39-50 | Email and photo never decide the outcome. |
| OnlineRegistration.DuplicateAadharFails | app/api/online-registration/route.ts:57-86 | A second form that reuses an Aadhaar number already on file fails, even with a new phone number. The reply is the generic 500, not a conflict status, and the store is unchanged. |
| Cors.WithCors | lib/cors.ts:4-29 | An allowed origin is echoed. A missing or empty origin gets `allowedOrigins[0]`. A disallowed origin leaves the allow-origin header as it was. Methods, Headers and Credentials are always set to their fixed values. No other header changes. |
| Cors.AllowOriginAlwaysAllowed | lib/cors.ts:6-22 | Starting without the header, any allow-origin value present afterwards is on the allow-list. |
| Cors.WithCorsIdempotent | lib/cors.ts:17-26 | Applying the headers twice for the same request equals applying them once. |
| RegistrationsPage.Filtered | app/admin/user/page.tsx:84-112 | The filtered list is an order-preserving subsequence of the rows. It holds exactly the rows that pass the search, payment and day filters, each as often as in the input. With every filter empty it is the whole list. |
| RegistrationsPage.Without | app/admin/user/page.tsx:120 | Removing an id drops every occurrence of it. Every other id keeps its number of occurrences and its order. |
| RegistrationsPage.ToggleSelect | app/admin/user/page.tsx:117-123 | The toggled id is selected afterwards exactly when it was not before. No other id changes, and an absent id is appended. |
| RegistrationsPage.ToggleKeepsNoDuplicates | app/admin/user/page.tsx:117-123 | Starting from a duplicate-free selection, toggling never creates a duplicate. |
| RegistrationsPage.ToggleTwice | app/admin/user/page.tsx:117-123 | Toggling an id twice restores the selection as a set. When the id was absent, it restores the exact list. |
| RegistrationsPage.ToggleSelectAll | app/admin/user/page.tsx:125-131 | The selection is cleared when its length equals the filtered length. Otherwise it becomes the filtered ids, in order. |
| RegistrationsPage.SelectAllRoundTrip | app/admin/user/page.tsx:125-131 | Start from an empty selection over visible rows with distinct ids. One click on the header checkbox selects every visible id exactly once and ticks the box (lines 239-241). A second click clears the selection and unticks it. |
| RegistrationsPage.ToggleAllComparesLengthsOnly | app/admin/user/page.tsx:125-131 | One id selected under an earlier filter, plus one different visible row, makes select-all clear the selection instead of selecting the row. |
| RegistrationsPage.FetchSucceeded | app/admin/user/page.tsx:67-69 | A successful fetch replaces the rows and resets the selection to empty. |
| RegistrationsPage.DeleteRequest | app/admin/user/page.tsx:136-148 | A delete request is sent only with a non-empty, confirmed selection, and it carries exactly the selected ids. |
| ManagementPage.UpdateEnabled | app/admin/management/page.tsx:460-462 | The update button is enabled exactly when a new role is chosen, no update is running, and the role differs from the selected member's current role. With no member selected, the last condition does not apply. |
| ManagementPage.RoleChangeRequest | app/admin/management/page.tsx:114-131 | Nothing is sent without a selected member, a new role and a session user id. Otherwise the request names the session user as actor and the selected member as target. |
| ManagementPage.ReplaceRole | app/admin/management/page.tsx:135-141 | Only members with the selected id get the new role. Length, order, ids, names and emails are unchanged. |
| ManagementPage.RemoveMember | app/admin/management/page.tsx:174-178 | No member with the deleted id remains. Every other member remains as often as before, in the same order. |
| ManagementPage.AdminCount | app/admin/management/page.tsx:256 | The count is the number of members whose role is ADMIN. So it never exceeds the number of members. It is 0 exactly when no member is an ADMIN, and equals the number of members exactly when every member is. |
| ManagementPage.ActiveRoles | app/admin/management/page.tsx:268 | The count is the size of the set of roles held by members, so it never exceeds the number of members. It is 1 exactly when there are members and they all hold the same role. |
| ManagementPage.OwnCardRefused | app/admin/management/page.tsx:126-129 | The page sends the session user as the actor. So a role change requested from one's own card is refused by the server: 400 for an admin, 403 otherwise. The store is unchanged. |

## Left out

- Object-storage uploads, video endpoints, editors, list views, navigation and page layout are
  UI or calls into foreign APIs, with no decision logic beyond presence checks the server
  repeats.
- Token signing and verification (NextAuth `getToken`, `getServerSession`): the token's claims
  and the server-session role are inputs. A malformed or expired token is an absent token.
- bcrypt: hashing is an input string (`hashed`) and comparison is the parameter
  `passwordMatches`.
- Prisma: each table is a map. Generated ids and timestamps are parameters. `db.$disconnect` is
  not modelled.
- Auth.Authorize: requires that names are unique in the staff table. A `findUnique` by name
  presupposes that, and it makes the lookup a function.
- JSON values that are `null` or of the wrong type (a number where a string is expected) are
  not modelled. A field is a string or it is missing.
- Strings.ToLower: only ASCII letters are lower-cased. JavaScript's and the database's
  full-Unicode case mapping is not modelled. Non-ASCII characters that lower-case to ASCII
  letters (the Kelvin sign, for one) slugify differently in the source.
- ManagementApi.Register: the password length counts Unicode scalar values. JavaScript counts
  UTF-16 code units, which differ for characters outside the Basic Multilingual Plane.
- RegistrationsPage.Filtered: the date filters compare whole calendar days held as integers.
  They abstract the page's local-time `Date`/`setHours` arithmetic.
- Blogs.SearchBlogs: blogs with equal `createdAt` come out in some fixed order. The database
  leaves their order open, so the contract states sortedness and how often each blog occurs,
  not the order among equal dates.
- Blogs.CreateBlog: the blog table's constraints (for instance a unique slug) are not part of
  this model, so no store failure is modelled for blog creation.
- UpdateRole.ChangeRole: a role string outside the enum is taken to be refused by the store's
  enum validation, and the handler's catch turns that into a 500.
- OnlineRegistration.Submit: the unique columns modelled are the phone number and the Aadhaar
  number. The applicant table's full schema is not part of this model.
- The staff-delete endpoint (`/api/management/{id}`) and the applicant-delete endpoint
  (`/api/users/delete`) are called by the pages. Their server behaviour is not modelled; only
  the pages' guards and local updates are.
- Cors.WithCors: header names are keys of a case-sensitive map, and the model's keys use the
  source's mixed-case spelling. Fetch `Headers` names are case-insensitive, so `set` would
  overwrite a key that differs from a CORS header name only in case; the model keeps such a key
  beside its own. "No other header changes" does not cover that case.
- `app/middleware.ts` is an older copy of the gate and is not active. `app/page.tsx` renders
  static links. Neither is modelled.
- The list endpoints `app/api/courses/route.ts` and `app/api/users/route.ts` are single reads
  and are not modelled.
- The CSV export and cross-page selection map of the course list view are not modelled. They
  are not part of the handlers and pages modelled here.

=== FILE: auth.dfy ===
/** Credential sign-in and the two NextAuth callbacks that carry the staff
    member's id and role into the signed token and the session. */
module Auth {
  import opened Wrappers
  import opened Http
  import opened StaffStore

  /** The credentials form: both fields may be missing. */
  datatype Credentials = Credentials(name: Option<string>, password: Option<string>)

  /** The user object `authorize` hands to NextAuth on success. */
  datatype SignedIn = SignedIn(id: Id, name: string, email: string, role: string)

  /** The claims of the signed session token (JWT). */
  datatype Claims = Claims(name: Option<string>, email: Option<string>, id: Option<string>, role: Option<string>)

  datatype SessionUser = SessionUser(name: Option<string>, email: Option<string>, id: Option<string>, role: Option<string>)

  datatype Session = Session(user: Option<SessionUser>, expires: string)

  const MISSING_CREDENTIALS := "Missing credentials"
  const USER_NOT_FOUND := "User not found"
  const INVALID_PASSWORD := "Invalid password"

  /** `authorize`: look the member up by name and compare the password with the
      stored hash. `passwordMatches(clear, hash)` stands for `bcrypt.compare`. */
  function Authorize(store: Store, credentials: Option<Credentials>, passwordMatches: (string, string) -> bool)
    : (r: Result<SignedIn, string>)
    requires UniqueNames(store)
    ensures credentials.None? || !Truthy(credentials.value.name) || !Truthy(credentials.value.password)
      ==> r == Failure(MISSING_CREDENTIALS)
    ensures r.Success? <==>
      && credentials.Some? && Truthy(credentials.value.name) && Truthy(credentials.value.password)
      && (exists id :: id in store && store[id].name == credentials.value.name.value
            && passwordMatches(credentials.value.password.value, store[id].password))
    ensures r.Success? ==>
      (exists id :: id in store && store[id].name == credentials.value.name.value
         && r.value == SignedIn(store[id].id, store[id].name, store[id].email, RoleName(store[id].role)))
    ensures r.Failure? ==> r.error in {MISSING_CREDENTIALS, USER_NOT_FOUND, INVALID_PASSWORD}
  {
    if credentials.None? || !Truthy(credentials.value.name) || !Truthy(credentials.value.password) then
      Failure(MISSING_CREDENTIALS)
    else
      match FindByName(store, credentials.value.name.value)
      case None => Failure(USER_NOT_FOUND)
      case Some(user) =>
        if !passwordMatches(credentials.value.password.value, user.password) then Failure(INVALID_PASSWORD)
        else Success(SignedIn(user.id, user.name, user.email, RoleName(user.role)))
  }

  /** `callbacks.jwt`: on sign-in (a user is present) the token takes the user's
      role and id; on every later call the token comes back as it was. */
  function Jwt(token: Claims, user: Option<SignedIn>): (r: Claims)
    ensures user.None? ==> r == token
    ensures user.Some? ==> r.role == Some(user.value.role) && r.id == Some(user.value.id)
    ensures r.name == token.name && r.email == token.email
  {
    match user
    case None => token
    case Some(u) => token.(role := Some(u.role), id := Some(u.id))
  }

  /** `callbacks.session`: the session user takes the token's role and id only
      when the session has a user and the token's role is truthy. */
  function SessionOf(session: Session, token: Claims): (r: Session)
    ensures session.user.None? || !Truthy(token.role) ==> r == session
    ensures session.user.Some? && Truthy(token.role) ==>
      r.user == Some(session.user.value.(role := token.role, id := token.id))
    ensures r.expires == session.expires && r.user.Some? == session.user.Some?
  {
    if session.user.Some? && Truthy(token.role) then
      session.(user := Some(session.user.value.(role := token.role, id := token.id)))
    else session
  }

  /** The role claim is frozen at sign-in: any number of later refreshes keep
      the role the store had when the member signed in. This follows directly
      from `Jwt` returning the token unchanged when no user is present; the
      induction repeats that one step once per refresh. */
  lemma {:induction false} RoleFrozenAfterSignIn(token: Claims, u: SignedIn, refreshes: nat)
    ensures Refresh(Jwt(token, Some(u)), refreshes).role == Some(u.role)
    decreases refreshes
  {
    if refreshes > 0 {
      RoleFrozenAfterSignIn(token, u, refreshes - 1);
    }
  }

  /** `n` token refreshes after sign-in: the jwt callback without a user. */
  function Refresh(token: Claims, n: nat): Claims
    decreases n
  {
    if n == 0 then token else Jwt(Refresh(token, n - 1), None)
  }
}

=== FILE: blogs.dfy ===
/** `/api/blogs`: search listing (GET) and creation with a slug derived from
    the title (POST). */
module Blogs {
  import opened Wrappers
  import opened Http
  import opened Strings
  import Seqs

  // ---------------------------------------------------------------- slug

  /** The regular-expression class `\w`. */
  predicate IsWordChar(c: char) {
    ('a' <= c <= 'z') || ('A' <= c <= 'Z') || ('0' <= c <= '9') || c == '_'
  }

  /** Characters `[^\w-]+` does not remove. */
  predicate KeptInSlug(c: char) {
    IsWordChar(c) || c == '-'
  }

  /** The characters a slug may hold. */
  predicate IsSlugChar(c: char) {
    ('a' <= c <= 'z') || ('0' <= c <= '9') || c == '_' || c == '-'
  }

  /** `.replace(/\s+/g, "-")`: every maximal whitespace run becomes one `-`. */
  function CollapseSpaces(s: string): (r: string)
    ensures |r| <= |s|
    ensures NoSpace(r)
    ensures forall i :: 0 <= i < |r| ==> r[i] == '-' || r[i] in s
    decreases |s|
  {
    if |s| == 0 then ""
    else if IsSpace(s[0]) then
      var t := TrimStart(s[1..]);
      assert t == s[|s| - |t|..];
      var c := CollapseSpaces(t);
      CollapseStep(s, t, '-', c);
      "-" + c
    else
      var c := CollapseSpaces(s[1..]);
      CollapseStep(s, s[1..], s[0], c);
      [s[0]] + c
  }

  /** One step of `CollapseSpaces`: a non-whitespace character taken from the
      front of `s`, or the `-` that replaces a run there, goes in front of the
      collapsed rest. */
  lemma CollapseStep(s: string, t: string, h: char, c: string)
    requires |t| < |s| && t == s[|s| - |t|..]
    requires !IsSpace(h) && (h == '-' || h == s[0])
    requires |c| <= |t| && NoSpace(c)
    requires forall i :: 0 <= i < |c| ==> c[i] == '-' || c[i] in t
    ensures |[h] + c| <= |s|
    ensures NoSpace([h] + c)
    ensures forall i :: 0 <= i < |[h] + c| ==> ([h] + c)[i] == '-' || ([h] + c)[i] in s
  {
    forall i | 1 <= i < |c| + 1 ensures !IsSpace(([h] + c)[i]) {
      assert ([h] + c)[i] == c[i - 1];
    }
    forall i | 1 <= i < |c| + 1 && c[i - 1] != '-' ensures ([h] + c)[i] in s {
      var k :| 0 <= k < |t| && t[k] == c[i - 1];
      assert s[|s| - |t| + k] == t[k];
    }
  }

  /** `.replace(/[^\w-]+/g, "")` */
  function StripNonWord(s: string): (r: string)
    ensures forall i :: 0 <= i < |r| ==> KeptInSlug(r[i]) && r[i] in s
    ensures forall i :: 0 <= i < |s| && KeptInSlug(s[i]) ==> s[i] in r
    ensures Seqs.IsSubsequence(r, s)
  {
    Seqs.Filter(s, KeptInSlug)
  }

  /** Stripping keeps each word character and `-` as often as it occurs in
      the input, and no other character. */
  lemma StripNonWordCounts(s: string)
    ensures forall c :: multiset(StripNonWord(s))[c] == if KeptInSlug(c) then multiset(s)[c] else 0
  {
    Seqs.FilterCounts(s, KeptInSlug);
  }

  /** The slug of a blog title: lower-cased, whitespace runs turned into `-`,
      everything but word characters and `-` removed. */
  function Slug(title: string): (r: string)
    ensures forall i :: 0 <= i < |r| ==> IsSlugChar(r[i])
    ensures NoSpace(r)
    ensures |r| <= |title|
  {
    var lower := ToLower(title);
    var dashed := CollapseSpaces(lower);
    var r := StripNonWord(dashed);
    assert forall i :: 0 <= i < |r| ==> IsSlugChar(r[i]) by {
      forall i | 0 <= i < |r| ensures IsSlugChar(r[i]) {
        assert r[i] in dashed;
        if r[i] != '-' {
          var j :| 0 <= j < |lower| && lower[j] == r[i];
          assert !IsUpper(lower[j]);
        }
      }
    }
    r
  }

  /** Replacing a whitespace run: a space-free word, a run of whitespace and a
      rest that does not start with whitespace give the word, one `-`, and the
      rest collapsed. */
  lemma {:induction false} CollapseRun(word: string, run: string, rest: string)
    requires NoSpace(word)
    requires |run| > 0 && AllSpace(run)
    requires rest == [] || !IsSpace(rest[0])
    ensures CollapseSpaces(word + run + rest) == word + "-" + CollapseSpaces(rest)
    decreases |word|
  {
    if |word| == 0 {
      assert word + run + rest == run + rest;
      CollapseRunAlone(run, rest);
    } else {
      CollapseRun(word[1..], run, rest);
      CollapseRunStep(word, run, rest);
    }
  }

  /** A whitespace run with no word in front becomes one `-`. */
  lemma CollapseRunAlone(run: string, rest: string)
    requires |run| > 0 && AllSpace(run)
    requires rest == [] || !IsSpace(rest[0])
    ensures CollapseSpaces(run + rest) == "-" + CollapseSpaces(rest)
  {
    assert run + rest == [run[0]] + run[1..] + rest;
    CollapseLeadingRun(run[0], run[1..], rest);
  }

  /** The word in front of a run is copied one character at a time. */
  lemma CollapseRunStep(word: string, run: string, rest: string)
    requires NoSpace(word) && |word| > 0
    requires CollapseSpaces(word[1..] + run + rest) == word[1..] + "-" + CollapseSpaces(rest)
    ensures CollapseSpaces(word + run + rest) == word + "-" + CollapseSpaces(rest)
  {
    var w := word[1..];
    var t := w + run + rest;
    assert word == [word[0]] + w;
    assert word + run + rest == [word[0]] + t;
    CollapseWordCons(word[0], t);
    assert [word[0]] + (w + "-" + CollapseSpaces(rest)) == word + "-" + CollapseSpaces(rest);
  }

  /** A whitespace run at the front becomes one `-`. */
  lemma CollapseLeadingRun(c: char, run: string, rest: string)
    requires IsSpace(c) && AllSpace(run)
    requires rest == [] || !IsSpace(rest[0])
    ensures CollapseSpaces([c] + run + rest) == "-" + CollapseSpaces(rest)
  {
    assert [c] + run + rest == [c] + (run + rest);
    DropRun(run, rest);
    CollapseSpaceCons(c, run + rest);
  }

  /** One unfolding of `CollapseSpaces` at a whitespace character. */
  lemma CollapseSpaceCons(c: char, t: string)
    requires IsSpace(c)
    ensures CollapseSpaces([c] + t) == "-" + CollapseSpaces(TrimStart(t))
  {
    assert ([c] + t)[1..] == t;
  }

  /** One unfolding of `CollapseSpaces` at any other character. */
  lemma CollapseWordCons(c: char, t: string)
    requires !IsSpace(c)
    ensures CollapseSpaces([c] + t) == [c] + CollapseSpaces(t)
  {
    assert ([c] + t)[1..] == t;
  }

  lemma {:induction false} DropRun(run: string, rest: string)
    requires AllSpace(run)
    requires rest == [] || !IsSpace(rest[0])
    ensures TrimStart(run + rest) == rest
    decreases |run|
  {
    if |run| == 0 {
      assert run + rest == rest;
      TrimStartOfTrimmed(rest);
    } else {
      assert (run + rest)[1..] == run[1..] + rest;
      DropRun(run[1..], rest);
    }
  }

  lemma {:induction false} CollapseNoSpace(s: string)
    requires NoSpace(s)
    ensures CollapseSpaces(s) == s
    decreases |s|
  {
    if |s| > 0 {
      CollapseNoSpace(s[1..]);
      assert s == [s[0]] + s[1..];
    }
  }

  /** A title made only of slug characters is its own slug. */
  lemma SlugOfSlugChars(title: string)
    requires forall i :: 0 <= i < |title| ==> IsSlugChar(title[i])
    ensures Slug(title) == title
  {
    assert ToLower(title) == title;
    CollapseNoSpace(title);
    Seqs.FilterAllKept(title, KeptInSlug);
  }

  /** A slug is its own slug. */
  lemma SlugIdempotent(title: string)
    ensures Slug(Slug(title)) == Slug(title)
  {
    SlugOfSlugChars(Slug(title));
  }

  // ---------------------------------------------------------------- listing

  datatype Blog = Blog(id: Id, title: string, excerpt: Option<string>, content: string,
                       slug: string, image: string, createdAt: int)

  /** The `where` of the GET: no condition for an empty search, otherwise a
      case-insensitive `contains` on the title. */
  predicate MatchesSearch(b: Blog, search: string) {
    search == "" || Contains(ToLower(b.title), ToLower(search))
  }

  /** `orderBy: { createdAt: "desc" }` */
  predicate NewestFirst(s: seq<Blog>) {
    forall i, j :: 0 <= i < j < |s| ==> s[i].createdAt >= s[j].createdAt
  }

  function InsertByDate(b: Blog, s: seq<Blog>): (r: seq<Blog>)
    requires NewestFirst(s)
    ensures NewestFirst(r)
    ensures multiset(r) == multiset(s) + multiset{b}
    decreases |s|
  {
    if |s| == 0 || b.createdAt >= s[0].createdAt then
      PrependNewest(b, s);
      [b] + s
    else
      NewestFirstTail(s);
      var tail := InsertByDate(b, s[1..]);
      InsertBehindHead(b, s, tail);
      [s[0]] + tail
  }

  /** A sorted list stays sorted without its head. */
  lemma NewestFirstTail(s: seq<Blog>)
    requires NewestFirst(s) && |s| > 0
    ensures NewestFirst(s[1..])
  {
    var rest := s[1..];
    forall i, j | 0 <= i < j < |rest| ensures rest[i].createdAt >= rest[j].createdAt {
      assert rest[i] == s[i + 1] && rest[j] == s[j + 1];
    }
  }

  /** The step of the insertion: a blog older than the head goes into the
      tail, and the head stays in front. */
  lemma InsertBehindHead(b: Blog, s: seq<Blog>, tail: seq<Blog>)
    requires NewestFirst(s) && |s| > 0 && b.createdAt < s[0].createdAt
    requires NewestFirst(tail) && multiset(tail) == multiset(s[1..]) + multiset{b}
    ensures NewestFirst([s[0]] + tail)
    ensures multiset([s[0]] + tail) == multiset(s) + multiset{b}
  {
    var rest := s[1..];
    forall i | 0 <= i < |tail| ensures tail[i].createdAt <= s[0].createdAt {
      assert tail[i] in multiset(tail);
      if tail[i] != b {
        assert tail[i] in multiset(rest);
        var j :| 0 <= j < |rest| && rest[j] == tail[i];
        assert rest[j] == s[j + 1];
      }
    }
    PrependNewest(s[0], tail);
    assert s == [s[0]] + rest;
  }

  /** A blog no older than every blog of a sorted list can go in front of it. */
  lemma PrependNewest(x: Blog, t: seq<Blog>)
    requires NewestFirst(t)
    requires forall i :: 0 <= i < |t| ==> t[i].createdAt <= x.createdAt
    ensures NewestFirst([x] + t)
  {
  }

  function SortNewestFirst(s: seq<Blog>): (r: seq<Blog>)
    ensures NewestFirst(r)
    ensures multiset(r) == multiset(s)
    decreases |s|
  {
    if |s| == 0 then []
    else
      assert s == [s[0]] + s[1..];
      InsertByDate(s[0], SortNewestFirst(s[1..]))
  }

  /** The `where` clause of the search: the blogs whose title contains the
      search text, each as often as in the table. */
  function Matching(blogs: seq<Blog>, search: string): (m: seq<Blog>)
    ensures forall b :: multiset(m)[b] == if MatchesSearch(b, search) then multiset(blogs)[b] else 0
  {
    var keep := b => MatchesSearch(b, search);
    Seqs.FilterCounts(blogs, keep);
    Seqs.Filter(blogs, keep)
  }

  /** GET /api/blogs?search=… */
  function SearchBlogs(blogs: seq<Blog>, search: string): (r: seq<Blog>)
    ensures NewestFirst(r)
    ensures forall b :: b in r ==> b in blogs && MatchesSearch(b, search)
    ensures forall i :: 0 <= i < |blogs| && MatchesSearch(blogs[i], search) ==> blogs[i] in r
    ensures search == "" ==> multiset(r) == multiset(blogs)
    ensures forall b :: multiset(r)[b] == if MatchesSearch(b, search) then multiset(blogs)[b] else 0
  {
    var r := SortNewestFirst(Matching(blogs, search));
    Seqs.CountsGiveMembership(r, blogs, b => MatchesSearch(b, search));
    assert search == "" ==> multiset(r) == multiset(blogs);
    r
  }

  // ---------------------------------------------------------------- create

  datatype BlogInput = BlogInput(title: Option<string>, excerpt: Option<string>, content: Option<string>,
                                 image: Option<string>)

  /** POST /api/blogs. Title, content and image are required; the title is
      stored as sent and the slug is derived from it. */
  function CreateBlog(body: BlogInput, freshId: Id, now: int): (r: Reply<Blog>)
    ensures r.status == BAD_REQUEST <==> !Truthy(body.title) || !Truthy(body.content) || !Truthy(body.image)
    ensures r.status != BAD_REQUEST ==> r.status == OK && r.data.Some?
    ensures r.status == BAD_REQUEST ==> r.data.None?
    ensures r.status == OK ==>
      var b := r.data.value;
      && b.title == body.title.value && b.content == body.content.value && b.image == body.image.value
      && b.excerpt == body.excerpt
      && b.slug == Slug(body.title.value)
  {
    if !Truthy(body.title) || !Truthy(body.content) || !Truthy(body.image) then
      Reply(BAD_REQUEST, "Title, content, and image are required", None)
    else
      var t := body.title.value;
      Reply(OK, "", Some(Blog(freshId, t, body.excerpt, body.content.value, Slug(t), body.image.value, now)))
  }
}

=== FILE: cors.dfy ===
/** `withCors`: the cross-origin headers added to the responses of the
    applicant list and the video list. */
module Cors {
  import opened Wrappers
  import opened Http

  /** The origins a browser may call from. */
  const AllowedOrigins: seq<string> := ["https://www.braiinybear.org"]

  const ALLOW_ORIGIN := "Access-Control-Allow-Origin"
  const ALLOW_METHODS := "Access-Control-Allow-Methods"
  const ALLOW_HEADERS := "Access-Control-Allow-Headers"
  const ALLOW_CREDENTIALS := "Access-Control-Allow-Credentials"

  /** The response's header list, by header name. */
  type Headers = map<string, string>

  /** Sets the CORS headers on `headers`. `origin` is the request's Origin
      header; it is None when there is no request or no such header. An empty
      Origin is falsy and is handled like a missing one. */
  function WithCors(headers: Headers, origin: Option<string>): (r: Headers)
    ensures Truthy(origin) && origin.value in AllowedOrigins ==>
      ALLOW_ORIGIN in r && r[ALLOW_ORIGIN] == origin.value
    ensures !Truthy(origin) ==> ALLOW_ORIGIN in r && r[ALLOW_ORIGIN] == AllowedOrigins[0]
    ensures Truthy(origin) && origin.value !in AllowedOrigins ==>
      (ALLOW_ORIGIN in r <==> ALLOW_ORIGIN in headers)
      && (ALLOW_ORIGIN in headers ==> r[ALLOW_ORIGIN] == headers[ALLOW_ORIGIN])
    ensures ALLOW_METHODS in r && r[ALLOW_METHODS] == "GET, POST, OPTIONS"
    ensures ALLOW_HEADERS in r && r[ALLOW_HEADERS] == "Content-Type, Authorization"
    ensures ALLOW_CREDENTIALS in r && r[ALLOW_CREDENTIALS] == "true"
    ensures forall h :: (h in headers && h !in {ALLOW_ORIGIN, ALLOW_METHODS, ALLOW_HEADERS, ALLOW_CREDENTIALS}
                         ==> h in r && r[h] == headers[h])
    ensures r.Keys == headers.Keys + {ALLOW_METHODS, ALLOW_HEADERS, ALLOW_CREDENTIALS}
      + (if Truthy(origin) && origin.value !in AllowedOrigins then {} else {ALLOW_ORIGIN})
  {
    var withOrigin :=
      if Truthy(origin) && origin.value in AllowedOrigins then headers[ALLOW_ORIGIN := origin.value]
      else if !Truthy(origin) then headers[ALLOW_ORIGIN := AllowedOrigins[0]]
      else headers;
    withOrigin[ALLOW_METHODS := "GET, POST, OPTIONS"]
              [ALLOW_HEADERS := "Content-Type, Authorization"]
              [ALLOW_CREDENTIALS := "true"]
  }

  /** Whatever allow-origin value `withCors` itself writes is on the allow-list:
      starting from a response without one, the header is either absent or an
      allowed origin. */
  lemma AllowOriginAlwaysAllowed(headers: Headers, origin: Option<string>)
    requires ALLOW_ORIGIN !in headers
    ensures ALLOW_ORIGIN in WithCors(headers, origin) ==> WithCors(headers, origin)[ALLOW_ORIGIN] in AllowedOrigins
  {
  }

  /** Applying `withCors` twice for the same request is the same as once. */
  lemma WithCorsIdempotent(headers: Headers, origin: Option<string>)
    ensures WithCors(WithCors(headers, origin), origin) == WithCors(headers, origin)
  {
  }
}

=== FILE: courses.dfy ===
/** Course records and the course endpoints: create, bulk edit and bulk delete. */
module Courses {
  import opened Wrappers
  import opened Http
  import opened Strings
  import Seqs

  datatype Course = Course(
    id: Id, title: string, totalFee: string, duration: string, approvedBy: string,
    category: string, shortDescription: string, fullDescription: string,
    status: string, image: string, createdAt: int)

  type Store = map<Id, Course>

  // ---------------------------------------------------------------- create

  /** The create body; every field may be missing. */
  datatype CourseInput = CourseInput(
    title: Option<string>, totalFee: Option<string>, duration: Option<string>,
    approvedBy: Option<string>, category: Option<string>, shortDescription: Option<string>,
    fullDescription: Option<string>, status: Option<string>, image: Option<string>)

  const DEFAULT_STATUS := "Ongoing"

  /** Every string field of a stored course is trimmed, and title and image are not empty. */
  predicate WellFormedCourse(c: Course) {
    && IsTrimmed(c.title) && IsTrimmed(c.totalFee) && IsTrimmed(c.duration) && IsTrimmed(c.approvedBy)
    && IsTrimmed(c.category) && IsTrimmed(c.shortDescription) && IsTrimmed(c.fullDescription)
    && IsTrimmed(c.status) && IsTrimmed(c.image)
    && c.title != "" && c.image != ""
  }

  /** POST /api/courses/create. Missing optional fields default to "" and the
      status to "Ongoing"; every field is trimmed. A missing title or image
      cannot be trimmed and fails as an internal error; a title that is blank
      is refused before the image is looked at. */
  function CreateCourse(store: Store, body: CourseInput, freshId: Id, now: int): (r: Outcome<Course, Store>)
    ensures r.reply.status == CREATED <==>
      && body.title.Some? && Trim(body.title.value) != ""
      && body.image.Some? && Trim(body.image.value) != ""
      && freshId !in store
    ensures r.reply.status == BAD_REQUEST <==>
      body.title.Some? && (Trim(body.title.value) == "" || (body.image.Some? && Trim(body.image.value) == ""))
    ensures r.reply.status != CREATED ==> r.store == store && r.reply.data.None?
    ensures r.reply.status == CREATED ==> r.reply.data.Some?
    ensures r.reply.status == CREATED ==>
      var c := r.reply.data.value;
      && WellFormedCourse(c)
      && r.store == store[freshId := c] && c.id == freshId
      && c.title == Trim(body.title.value) && c.image == Trim(body.image.value)
      && c.status == Trim(body.status.GetOr(DEFAULT_STATUS))
      && c.totalFee == Trim(body.totalFee.GetOr("")) && c.duration == Trim(body.duration.GetOr(""))
      && c.approvedBy == Trim(body.approvedBy.GetOr("")) && c.category == Trim(body.category.GetOr(""))
      && c.shortDescription == Trim(body.shortDescription.GetOr(""))
      && c.fullDescription == Trim(body.fullDescription.GetOr(""))
      && (body.totalFee.None? ==> c.totalFee == "")
      && (body.category.None? ==> c.category == "")
    ensures r.reply.status in {CREATED, BAD_REQUEST, INTERNAL_ERROR}
  {
    if body.title.None? then
      Outcome(Reply(INTERNAL_ERROR, "Internal Server Error", None), store)
    else if Trim(body.title.value) == "" then
      Outcome(Reply(BAD_REQUEST, "Title and image are required.", None), store)
    else if body.image.None? then
      Outcome(Reply(INTERNAL_ERROR, "Internal Server Error", None), store)
    else if Trim(body.image.value) == "" then
      Outcome(Reply(BAD_REQUEST, "Title and image are required.", None), store)
    else if freshId in store then
      Outcome(Reply(INTERNAL_ERROR, "Internal Server Error", None), store)
    else
      var c := Course(
        freshId, Trim(body.title.value), Trim(body.totalFee.GetOr("")), Trim(body.duration.GetOr("")),
        Trim(body.approvedBy.GetOr("")), Trim(body.category.GetOr("")),
        Trim(body.shortDescription.GetOr("")), Trim(body.fullDescription.GetOr("")),
        Trim(body.status.GetOr(DEFAULT_STATUS)), Trim(body.image.value), now);
      Outcome(Reply(CREATED, "", Some(c)), store[freshId := c])
  }

  /** The status is free text: whether a course is created never depends on
      it, so values outside Ongoing, Upcoming and Completed are stored as well. */
  lemma StatusNotValidated(store: Store, body: CourseInput, freshId: Id, now: int, status: Option<string>)
    ensures CreateCourse(store, body, freshId, now).reply.status
         == CreateCourse(store, body.(status := status), freshId, now).reply.status
  {
  }

  // ---------------------------------------------------------------- bulk edit

  /** The only keys a bulk edit may write. */
  const AllowedFields: seq<string> := ["totalFee", "duration", "status", "category"]

  /** The value of a bulk-editable field, by its JSON key. */
  function Field(c: Course, key: string): Option<string> {
    if key == "totalFee" then Some(c.totalFee)
    else if key == "duration" then Some(c.duration)
    else if key == "status" then Some(c.status)
    else if key == "category" then Some(c.category)
    else None
  }

  /** The allow-list filter: keeps the allowed keys with their values, drops
      the rest silently. */
  function AllowedOnly(updates: map<string, string>): (f: map<string, string>)
    ensures f.Keys <= updates.Keys
    ensures forall k :: k in f ==> k in AllowedFields && f[k] == updates[k]
    ensures forall k :: k in updates && k in AllowedFields ==> k in f
  {
    map k | k in updates && k in AllowedFields :: updates[k]
  }

  /** One course after `updateMany` wrote the filtered fields to it. */
  function ApplyFields(c: Course, fields: map<string, string>): (r: Course)
    ensures forall k :: k in AllowedFields ==> Field(r, k) == if k in fields then Some(fields[k]) else Field(c, k)
    ensures r.(totalFee := c.totalFee, duration := c.duration, status := c.status, category := c.category) == c
  {
    c.(totalFee := if "totalFee" in fields then fields["totalFee"] else c.totalFee,
       duration := if "duration" in fields then fields["duration"] else c.duration,
       status := if "status" in fields then fields["status"] else c.status,
       category := if "category" in fields then fields["category"] else c.category)
  }

  function IdSet(ids: seq<Id>): set<Id> {
    set i | 0 <= i < |ids| :: ids[i]
  }

  /** The stored courses a request names; `result.count` of `updateMany` and
      `deleteMany` is their number. */
  function Matched(store: Store, ids: seq<Id>): (m: set<Id>)
    ensures m <= store.Keys
    ensures |m| <= |ids|
    ensures forall id :: id in m <==> id in store && id in ids
  {
    var m := store.Keys * IdSet(ids);
    Seqs.DistinctBound(ids);
    Seqs.SubsetCard(m, IdSet(ids));
    m
  }

  /** POST /api/courses/bulk-edit. `courseIds` is None when the body's value is
      not an array, `updates` None when it is missing. The reply's data is
      `updatedCount`. */
  function BulkEdit(store: Store, courseIds: Option<seq<Id>>, updates: Option<map<string, string>>)
    : (r: Outcome<nat, Store>)
    ensures courseIds.None? || |courseIds.value| == 0 ==>
      r.reply == Reply(BAD_REQUEST, "Invalid course IDs", None)
    ensures courseIds.Some? && |courseIds.value| > 0 && (updates.None? || |updates.value| == 0) ==>
      r.reply == Reply(BAD_REQUEST, "No updates provided", None)
    ensures (courseIds.Some? && |courseIds.value| > 0 && updates.Some? && |updates.value| > 0
             && |AllowedOnly(updates.value)| == 0) ==>
      r.reply == Reply(BAD_REQUEST, "No valid fields to update", None)
    ensures (courseIds.Some? && |courseIds.value| > 0 && updates.Some? && |updates.value| > 0
             && |AllowedOnly(updates.value)| > 0) ==>
      r.reply.status == OK
    ensures r.reply.status != OK ==> r.store == store && r.reply.status == BAD_REQUEST
    ensures r.reply.status == OK ==>
      var ids := courseIds.value;
      var fields := AllowedOnly(updates.value);
      && |fields| > 0
      && r.store.Keys == store.Keys
      && (forall id :: id in store && id in ids ==> r.store[id] == ApplyFields(store[id], fields))
      && (forall id :: id in store && id !in ids ==> r.store[id] == store[id])
      && r.reply.data == Some(|Matched(store, ids)|)
      && r.reply.data.value <= |ids|
  {
    if courseIds.None? || |courseIds.value| == 0 then
      Outcome(Reply(BAD_REQUEST, "Invalid course IDs", None), store)
    else if updates.None? || |updates.value| == 0 then
      Outcome(Reply(BAD_REQUEST, "No updates provided", None), store)
    else
      var fields := AllowedOnly(updates.value);
      if |fields| == 0 then
        Outcome(Reply(BAD_REQUEST, "No valid fields to update", None), store)
      else
        var ids := courseIds.value;
        Outcome(Reply(OK, "", Some(|Matched(store, ids)|)), EditListed(store, ids, fields))
  }

  /** `updateMany` with `id: { in: ids }`: every listed course takes the
      fields, every other course stays as it was. */
  function EditListed(store: Store, ids: seq<Id>, fields: map<string, string>): (r: Store)
    ensures r.Keys == store.Keys
    ensures forall id :: id in store && id in ids ==> r[id] == ApplyFields(store[id], fields)
    ensures forall id :: id in store && id !in ids ==> r[id] == store[id]
  {
    map id | id in store :: if id in ids then ApplyFields(store[id], fields) else store[id]
  }

  /** A payload mixing an allowed key with a forged one writes only the allowed
      key: the forged key is dropped, not refused. */
  lemma ForgedFieldDropped(store: Store, ids: seq<Id>, id: Id)
    requires |ids| > 0 && id in ids && id in store
    ensures var r := BulkEdit(store, Some(ids), Some(map["status" := "Ongoing", "bogusField" := "x"]));
      && r.reply.status == OK
      && r.store[id] == store[id].(status := "Ongoing")
  {
    var updates := map["status" := "Ongoing", "bogusField" := "x"];
    var f := AllowedOnly(updates);
    assert "status" in f;
    assert f == map["status" := "Ongoing"] by {
      assert "bogusField" !in AllowedFields;
    }
  }

  // ---------------------------------------------------------------- bulk delete

  /** POST /api/courses/bulk-delete. The reply's data is `deletedCount`;
      ids with no course are ignored. */
  function BulkDelete(store: Store, courseIds: Option<seq<Id>>): (r: Outcome<nat, Store>)
    ensures courseIds.None? || |courseIds.value| == 0 ==>
      r == Outcome(Reply(BAD_REQUEST, "Invalid course IDs", None), store)
    ensures courseIds.Some? && |courseIds.value| > 0 ==>
      var ids := courseIds.value;
      && r.reply.status == OK
      && (forall id :: id in r.store ==> id !in ids)
      && (forall id :: id in store && id !in ids ==> id in r.store && r.store[id] == store[id])
      && r.store.Keys <= store.Keys
      && r.reply.data == Some(|store| - |r.store|)
      && r.reply.data.value <= |ids|
  {
    if courseIds.None? || |courseIds.value| == 0 then
      Outcome(Reply(BAD_REQUEST, "Invalid course IDs", None), store)
    else
      var ids := courseIds.value;
      var gone := Matched(store, ids);
      var store' := store - gone;
      assert store'.Keys == store.Keys - gone;
      Outcome(Reply(OK, "", Some(|gone|)), store')
  }

  /** Sending the same bulk delete again changes nothing and reports zero. */
  lemma BulkDeleteIdempotent(store: Store, ids: seq<Id>)
    requires |ids| > 0
    ensures var once := BulkDelete(store, Some(ids)).store;
      BulkDelete(once, Some(ids)) == Outcome(Reply(OK, "", Some(0)), once)
  {
    var once := BulkDelete(store, Some(ids)).store;
    assert Matched(once, ids) == {};
    assert once - {} == once;
  }
}

=== FILE: email.dfy ===
/** The e-mail shape check of staff registration, `/^[^\s@]+@[^\s@]+\.[^\s@]+$/`,
    given twice: as the pattern's own structure, and as the four conditions
    a caller can check one by one; the two are proved to agree. */
module Email {
  import opened Strings

  /** One `[^\s@]+` run. */
  predicate Atom(x: string) {
    |x| > 0 && forall i :: 0 <= i < |x| ==> x[i] != '@' && !IsSpace(x[i])
  }

  /** The pattern read literally: three runs separated by `@` and `.`. */
  ghost predicate MatchesPattern(s: string) {
    exists local, host, tld :: Atom(local) && Atom(host) && Atom(tld) && s == local + "@" + host + "." + tld
  }

  function CountChar(s: string, c: char): (n: nat)
    ensures n <= |s|
    ensures n > 0 <==> c in s
    decreases |s|
  {
    if |s| == 0 then 0 else (if s[0] == c then 1 else 0) + CountChar(s[1..], c)
  }

  /** Position of the first `c` in `s`. */
  function IndexOf(s: string, c: char): (i: nat)
    requires c in s
    ensures i < |s| && s[i] == c
    ensures forall k :: 0 <= k < i ==> s[k] != c
    decreases |s|
  {
    if s[0] == c then 0 else 1 + IndexOf(s[1..], c)
  }

  /** A `.` that is neither the first nor the last character. */
  predicate HasInnerDot(d: string) {
    exists i :: 0 < i < |d| - 1 && d[i] == '.'
  }

  /** Accepted exactly when: one `@`, no whitespace, a non-empty part before
      the `@`, and a `.` inside the part after it. */
  predicate IsValidEmail(s: string) {
    && NoSpace(s)
    && CountChar(s, '@') == 1
    && IndexOf(s, '@') > 0
    && HasInnerDot(s[IndexOf(s, '@') + 1..])
  }

  /** The count is one exactly when a single position holds `c`. */
  lemma {:induction false} CountCharOne(s: string, c: char, a: int)
    requires 0 <= a < |s| && s[a] == c
    ensures CountChar(s, c) == 1 <==> forall k :: 0 <= k < |s| && k != a ==> s[k] != c
    decreases |s|
  {
    if a == 0 {
      if forall k :: 0 <= k < |s| && k != a ==> s[k] != c {
        assert c !in s[1..];
      } else {
        var k :| 0 <= k < |s| && k != a && s[k] == c;
        assert s[1..][k - 1] == c;
      }
    } else {
      CountCharOne(s[1..], c, a - 1);
      assert (forall k :: 0 <= k < |s| && k != a ==> s[k] != c)
        <==> s[0] != c && (forall k :: 0 <= k < |s| - 1 && k != a - 1 ==> s[1..][k] != c);
      assert s[1..][a - 1] == c;
    }
  }

  /** The step-by-step check is the pattern. */
  lemma EmailCheckIsPattern(s: string)
    ensures IsValidEmail(s) <==> MatchesPattern(s)
  {
    if IsValidEmail(s) {
      ValidEmailMatches(s);
    }
    if MatchesPattern(s) {
      var local, host, tld :| Atom(local) && Atom(host) && Atom(tld) && s == local + "@" + host + "." + tld;
      PatternIsValid(local, host, tld);
    }
  }

  /** An address the check accepts splits into the pattern's three runs. */
  lemma ValidEmailMatches(s: string)
    requires IsValidEmail(s)
    ensures MatchesPattern(s)
  {
    var a := IndexOf(s, '@');
    assert forall k :: 0 <= k < |s| && k != a ==> s[k] != '@' by {
      CountCharOne(s, '@', a);
    }
    var d := s[a + 1..];
    var i :| 0 < i < |d| - 1 && d[i] == '.';
    var local, host, tld := s[..a], s[a + 1..a + 1 + i], s[a + 2 + i..];
    assert Atom(local);
    assert Atom(host);
    assert Atom(tld);
    assert s == local + "@" + host + "." + tld;
  }

  /** An address built from the pattern's three runs passes the check. */
  lemma PatternIsValid(local: string, host: string, tld: string)
    requires Atom(local) && Atom(host) && Atom(tld)
    ensures IsValidEmail(local + "@" + host + "." + tld)
  {
    var s := local + "@" + host + "." + tld;
    var a := |local|;
    assert s[a] == '@';
    assert forall k :: 0 <= k < |s| && k != a ==> s[k] != '@' && !IsSpace(s[k]) by {
      forall k | 0 <= k < |s| && k != a ensures s[k] != '@' && !IsSpace(s[k]) {
        if k < a { assert s[k] == local[k]; }
        else if k < a + 1 + |host| { assert s[k] == host[k - a - 1]; }
        else if k > a + 1 + |host| { assert s[k] == tld[k - a - 2 - |host|]; }
      }
    }
    assert CountChar(s, '@') == 1 by {
      CountCharOne(s, '@', a);
    }
    assert IndexOf(s, '@') == a;
    assert s[a + 1..][|host|] == '.';
  }
}

=== FILE: http.dfy ===
/** What a route handler answers, and how it reads a JSON request body. */
module Http {
  import opened Wrappers

  /** The primary key of every table. */
  type Id = string

  const OK := 200
  const CREATED := 201
  const BAD_REQUEST := 400
  const FORBIDDEN := 403
  const NOT_FOUND := 404
  const CONFLICT := 409
  const INTERNAL_ERROR := 500

  /** A JSON response: status code, message and optional payload. */
  datatype Reply<T> = Reply(status: int, message: string, data: Option<T>)

  /** A reply together with the state of the store after the handler ran. */
  datatype Outcome<T, S> = Outcome(reply: Reply<T>, store: S)

  /** JavaScript truthiness of an optional string field: present and non-empty. */
  predicate Truthy(field: Option<string>) {
    field.Some? && field.value != ""
  }
}

=== FILE: management_api.dfy ===
/** `/api/management`: staff self-registration (POST) and the admin-only staff
    listing (GET). */
module ManagementApi {
  import opened Wrappers
  import opened Http
  import opened StaffStore
  import Email

  const MIN_PASSWORD_LENGTH := 6

  /** The registration body; any field may be missing. */
  datatype Registration = Registration(name: Option<string>, email: Option<string>, password: Option<string>)

  /** Everything the body must satisfy before the store is consulted. */
  predicate WellFormed(body: Registration) {
    && Truthy(body.name) && Truthy(body.email) && Truthy(body.password)
    && Email.IsValidEmail(body.email.value)
    && |body.password.value| >= MIN_PASSWORD_LENGTH
  }

  /** POST. `hashed` is what `bcrypt.hash(password, 10)` returned and
      `freshId` the id the store generates for the new row. */
  function Register(store: Store, body: Registration, hashed: string, freshId: Id): (r: Outcome<Profile, Store>)
    ensures !Truthy(body.name) || !Truthy(body.email) || !Truthy(body.password) ==>
      r.reply == Reply(BAD_REQUEST, "All fields are required", None)
    ensures Truthy(body.name) && Truthy(body.email) && Truthy(body.password) && !WellFormed(body)
      ==> r.reply.status == BAD_REQUEST
    ensures WellFormed(body) && EmailTaken(store, body.email.value) ==>
      r.reply == Reply(CONFLICT, "User with this email already exists", None)
    ensures r.reply.status == CREATED <==>
      WellFormed(body) && !EmailTaken(store, body.email.value)
      && freshId !in store && !NameTaken(store, body.name.value)
    ensures r.reply.status == CREATED ==>
      && r.store == store[freshId := Staff(freshId, body.name.value, body.email.value, hashed, EMPLOYEE)]
      && r.reply.data == Some(Profile(freshId, body.name.value, body.email.value, EMPLOYEE))
    ensures r.reply.status != CREATED ==> r.store == store && r.reply.data.None?
    ensures r.reply.status in {CREATED, BAD_REQUEST, CONFLICT, INTERNAL_ERROR}
  {
    if !Truthy(body.name) || !Truthy(body.email) || !Truthy(body.password) then
      Outcome(Reply(BAD_REQUEST, "All fields are required", None), store)
    else if !Email.IsValidEmail(body.email.value) then
      Outcome(Reply(BAD_REQUEST, "Invalid email format", None), store)
    else if |body.password.value| < MIN_PASSWORD_LENGTH then
      Outcome(Reply(BAD_REQUEST, "Password must be at least 6 characters long", None), store)
    else if EmailTaken(store, body.email.value) then
      Outcome(Reply(CONFLICT, "User with this email already exists", None), store)
    else
      var member := Staff(freshId, body.name.value, body.email.value, hashed, EMPLOYEE);
      match Insert(store, member)
      case None => Outcome(Reply(INTERNAL_ERROR, "An error occurred during registration", None), store)
      case Some(store') =>
        Outcome(Reply(CREATED, "Management user registered successfully", Some(ProfileOf(member))), store')
  }

  /** Whatever role a registrant might want, a new record is an EMPLOYEE. */
  lemma RegisteredAsEmployee(store: Store, body: Registration, hashed: string, freshId: Id)
    requires Register(store, body, hashed, freshId).reply.status == CREATED
    ensures freshId in Register(store, body, hashed, freshId).store
    ensures Register(store, body, hashed, freshId).store[freshId].role == EMPLOYEE
  {
  }

  /** A successful registration keeps the table's integrity. */
  lemma RegisterKeepsStoreValid(store: Store, body: Registration, hashed: string, freshId: Id)
    requires Valid(store)
    ensures Valid(Register(store, body, hashed, freshId).store)
  {
  }

  /** The password-length boundary: five characters are refused, six accepted. */
  lemma PasswordBoundary(store: Store, name: string, email: string, hashed: string, freshId: Id)
    requires name != "" && Email.IsValidEmail(email)
    requires !EmailTaken(store, email) && !NameTaken(store, name) && freshId !in store
    ensures Register(store, Registration(Some(name), Some(email), Some("12345")), hashed, freshId).reply.status == BAD_REQUEST
    ensures Register(store, Registration(Some(name), Some(email), Some("123456")), hashed, freshId).reply.status == CREATED
  {
  }

  /** The staff list as the GET returns it: id, name, email and role of every
      record. The password is not part of a Profile. */
  function Profiles(store: Store): (ps: set<Profile>)
    ensures forall id :: id in store ==> ProfileOf(store[id]) in ps
    ensures forall p :: p in ps ==> exists id :: id in store && ProfileOf(store[id]) == p
  {
    set id | id in store :: ProfileOf(store[id])
  }

  /** GET. `tokenRole` is the role claim of the request's session token;
      `sessionRole` the role of the server session, consulted only when the
      token does not carry ADMIN. */
  function ListStaff(store: Store, tokenRole: Option<string>, sessionRole: Option<string>): (r: Reply<set<Profile>>)
    ensures r.status == OK <==> tokenRole == Some("ADMIN") || sessionRole == Some("ADMIN")
    ensures r.status != OK ==> r == Reply(FORBIDDEN, "Only admins can fetch employees", None)
    ensures r.status == OK ==> r.data == Some(Profiles(store))
  {
    var isAdmin := if tokenRole == Some("ADMIN") then true else sessionRole == Some("ADMIN");
    if !isAdmin then Reply(FORBIDDEN, "Only admins can fetch employees", None)
    else Reply(OK, "Management users fetched successfully", Some(Profiles(store)))
  }
}

=== FILE: management_page.dfy ===
/** The staff panel of the admin area (`/admin/management`): the role dialog,
    the local list updates after the server answered, and the counters. */
module ManagementPage {
  import opened Wrappers
  import opened Http
  import Seqs
  import UpdateRole
  import StaffStore

  /** A staff member as the page lists it; the role is the JSON string. */
  datatype Member = Member(id: Id, name: string, email: string, role: string)

  /** The body the page posts to the role-update endpoint. */
  datatype RoleChange = RoleChange(adminId: Id, userId: Id, role: string)

  /** The update button is enabled only with a new role that differs from the
      member's current one, and not while an update is running. */
  function UpdateEnabled(newRole: string, selected: Option<Member>, updating: bool): (enabled: bool)
    ensures enabled <==> newRole != "" && !updating && (selected.None? || newRole != selected.value.role)
  {
    !(newRole == "" || (selected.Some? && newRole == selected.value.role) || updating)
  }

  /** `handleRoleUpdate`: nothing is sent without a selected member, a new role
      and the id of the signed-in user. */
  function RoleChangeRequest(selected: Option<Member>, newRole: string, sessionUserId: Option<Id>)
    : (r: Option<RoleChange>)
    ensures r.Some? <==> selected.Some? && newRole != "" && sessionUserId.Some? && sessionUserId.value != ""
    ensures r.Some? ==> r.value == RoleChange(sessionUserId.value, selected.value.id, newRole)
  {
    if selected.None? || newRole == "" || sessionUserId.None? || sessionUserId.value == "" then None
    else Some(RoleChange(sessionUserId.value, selected.value.id, newRole))
  }

  /** After a successful update: the member with that id takes the new role;
      length, order and everything else stay. */
  function ReplaceRole(users: seq<Member>, id: Id, newRole: string): (r: seq<Member>)
    ensures |r| == |users|
    ensures forall i :: 0 <= i < |r| ==> r[i].id == users[i].id && r[i].name == users[i].name && r[i].email == users[i].email
    ensures forall i :: 0 <= i < |r| ==> r[i].role == if users[i].id == id then newRole else users[i].role
  {
    seq(|users|, i requires 0 <= i < |users| => if users[i].id == id then users[i].(role := newRole) else users[i])
  }

  /** After a successful delete: every member with that id is gone, the others
      keep their order. */
  function RemoveMember(users: seq<Member>, id: Id): (r: seq<Member>)
    ensures forall i :: 0 <= i < |r| ==> r[i].id != id
    ensures forall i :: 0 <= i < |users| && users[i].id != id ==> users[i] in r
    ensures Seqs.IsSubsequence(r, users)
    ensures forall u :: multiset(r)[u] == if u.id != id then multiset(users)[u] else 0
  {
    var keep := (u: Member) => u.id != id;
    Seqs.FilterCounts(users, keep);
    Seqs.Filter(users, keep)
  }

  /** The roles of the listed members, in list order (`users.map(u => u.role)`). */
  function Roles(users: seq<Member>): seq<string> {
    seq(|users|, i requires 0 <= i < |users| => users[i].role)
  }

  predicate IsAdmin(u: Member) {
    u.role == "ADMIN"
  }

  /** The "Admins" card: the number of members whose role is ADMIN. */
  function AdminCount(users: seq<Member>): (n: nat)
    ensures n == multiset(Roles(users))["ADMIN"]
    ensures n <= |users|
    ensures n == 0 <==> forall i :: 0 <= i < |users| ==> users[i].role != "ADMIN"
    ensures n == |users| <==> forall i :: 0 <= i < |users| ==> users[i].role == "ADMIN"
  {
    var admins := Seqs.Filter(users, IsAdmin);
    AdminsAreRoleCount(users);
    assert |admins| > 0 ==> admins[0] in users;
    if forall i :: 0 <= i < |users| ==> IsAdmin(users[i]) then
      Seqs.FilterAllKept(users, IsAdmin);
      |admins|
    else
      var k :| 0 <= k < |users| && !IsAdmin(users[k]);
      Seqs.FilterDropsRejected(users, IsAdmin, k);
      |admins|
  }

  /** Filtering the admins out of the list counts the ADMIN entries among the roles. */
  lemma {:induction false} AdminsAreRoleCount(users: seq<Member>)
    ensures |Seqs.Filter(users, IsAdmin)| == multiset(Roles(users))["ADMIN"]
    decreases |users|
  {
    if |users| > 0 {
      var rest := users[1..];
      AdminsAreRoleCount(rest);
      Seqs.FilterLength(users, IsAdmin);
      RolesCons(users);
      assert multiset(Roles(users)) == multiset{users[0].role} + multiset(Roles(rest));
    }
  }

  /** The roles of a non-empty list: the head's role, then the tail's roles. */
  lemma RolesCons(users: seq<Member>)
    requires |users| > 0
    ensures Roles(users) == [users[0].role] + Roles(users[1..])
  {
    var rest := users[1..];
    forall i | 0 <= i < |users| ensures Roles(users)[i] == ([users[0].role] + Roles(rest))[i] {
      if i > 0 { assert users[i] == rest[i - 1]; }
    }
  }

  /** The "Active Roles" card: the size of the set of roles in use. */
  function ActiveRoles(users: seq<Member>): (n: nat)
    ensures n == |set u | u in users :: u.role|
    ensures n <= |users|
    ensures n == 1 <==> |users| > 0 && forall i :: 0 <= i < |users| ==> users[i].role == users[0].role
  {
    var roles := Roles(users);
    var distinct := set i | 0 <= i < |roles| :: roles[i];
    assert distinct == set u | u in users :: u.role by {
      forall x | x in (set u | u in users :: u.role) ensures x in distinct {
        var u :| u in users && u.role == x;
        var i :| 0 <= i < |users| && users[i] == u;
        assert roles[i] == x;
      }
    }
    Seqs.DistinctBound(roles);
    if |users| > 0 && forall i :: 0 <= i < |users| ==> users[i].role == users[0].role then
      assert distinct == {users[0].role} by {
        assert roles[0] in distinct;
      }
      |distinct|
    else if |users| == 0 then
      assert distinct == {};
      |distinct|
    else
      var k :| 0 <= k < |users| && users[k].role != users[0].role;
      assert roles[0] in distinct && roles[k] in distinct;
      assert {roles[0], roles[k]} <= distinct;
      assert |{roles[0], roles[k]}| == 2;
      Seqs.SubsetCard({roles[0], roles[k]}, distinct);
      |distinct|
  }

  /** The page sends the signed-in user's id as the acting admin, so picking
      one's own card and asking for a new role is always refused by the
      server: with 400 for an admin, 403 for anyone else. */
  lemma OwnCardRefused(store: StaffStore.Store, me: Member, newRole: string, sessionUserId: Option<Id>)
    requires StaffStore.Valid(store)
    requires sessionUserId == Some(me.id) && me.id in store
    requires RoleChangeRequest(Some(me), newRole, sessionUserId).Some?
    ensures var req := RoleChangeRequest(Some(me), newRole, sessionUserId).value;
      var r := UpdateRole.ChangeRole(store, Some(req.adminId), Some(req.userId), Some(req.role));
      r.store == store && r.reply.status in {400, 403}
  {
    UpdateRole.NoSelfChange(store, me.id, newRole);
  }
}

=== FILE: middleware.dfy ===
/** The route gate that runs before every page: public paths pass, everything
    else needs a session token, and the `/admin` area needs the ADMIN role. */
module Middleware {
  import opened Wrappers
  import opened Strings
  import opened Auth

  /** `NextResponse.next()` or a redirect to a path of the same site. */
  datatype Decision = Next | Redirect(location: string)

  /** API routes, framework assets, images, the logo, the icon, the site root
      and the login and register pages. */
  predicate IsPublic(path: string) {
    || StartsWith(path, "/api")
    || path == "/"
    || StartsWith(path, "/_next")
    || path == "/login"
    || path == "/register"
    || StartsWith(path, "/images")
    || StartsWith(path, "/logo")
    || path == "/favicon.ico"
  }

  /** A raw string-prefix test, so `/administrator` counts as well. */
  predicate IsAdminArea(path: string) {
    StartsWith(path, "/admin")
  }

  /** The dashboard a signed-in non-admin is sent to; an unknown or missing
      role goes back to the login page. */
  function LandingPath(role: Option<string>): (p: string)
    ensures p in {"/sales", "/technical", "/hr", "/media", "/employee", "/login"}
    ensures role !in {Some("SALES"), Some("TECHNICAL"), Some("HR"), Some("MEDIA"), Some("EMPLOYEE")} ==> p == "/login"
  {
    if role == Some("SALES") then "/sales"
    else if role == Some("TECHNICAL") then "/technical"
    else if role == Some("HR") then "/hr"
    else if role == Some("MEDIA") then "/media"
    else if role == Some("EMPLOYEE") then "/employee"
    else "/login"
  }

  lemma LandingOutsideAdminArea(role: Option<string>)
    ensures !IsAdminArea(LandingPath(role))
  {
    var p := LandingPath(role);
    if |p| >= 6 {
      assert p[..6][1] == p[1] != 'a';
    }
  }

  /** The gate. Only the path, whether a token is present and the token's
      role claim are consulted. */
  function Gate(path: string, token: Option<Claims>): (d: Decision)
    ensures IsPublic(path) ==> d == Next
    ensures !IsPublic(path) && token.None? ==> d == Redirect("/login")
    ensures d == Next <==>
      IsPublic(path) || (token.Some? && (!IsAdminArea(path) || token.value.role == Some("ADMIN")))
    ensures !IsPublic(path) && token.Some? && IsAdminArea(path) && token.value.role != Some("ADMIN")
      ==> d == Redirect(LandingPath(token.value.role))
    ensures d.Redirect? ==> d.location != path
  {
    if IsPublic(path) then Next
    else if token.None? then Redirect("/login")
    else if IsAdminArea(path) && token.value.role != Some("ADMIN") then
      LandingOutsideAdminArea(token.value.role);
      Redirect(LandingPath(token.value.role))
    else Next
  }

  /** Each landing path belongs to exactly one role, and all of them differ
      from the login page. */
  lemma LandingPathsDistinct(a: string, b: string)
    requires a in {"SALES", "TECHNICAL", "HR", "MEDIA", "EMPLOYEE"}
    requires b in {"SALES", "TECHNICAL", "HR", "MEDIA", "EMPLOYEE"}
    ensures LandingPath(Some(a)) != "/login"
    ensures LandingPath(Some(a)) == LandingPath(Some(b)) ==> a == b
  {
  }

  /** Each staff role's dashboard is the role's name in lower case under the
      site root. */
  lemma LandingIsRoleDashboard(r: string)
    requires r in {"SALES", "TECHNICAL", "HR", "MEDIA", "EMPLOYEE"}
    ensures LandingPath(Some(r)) == "/" + ToLower(r)
  {
  }

  /** Following a redirect once is enough: the page the gate redirects to is
      always let through for the same token, so the gate never loops. */
  lemma RedirectTargetPasses(path: string, token: Option<Claims>)
    requires Gate(path, token).Redirect?
    ensures Gate(Gate(path, token).location, token) == Next
  {
    if token.Some? {
      LandingOutsideAdminArea(token.value.role);
    }
  }

  /** Two tokens that agree on presence and role get the same decision,
      whatever their other claims. */
  lemma GateSeesOnlyRole(path: string, t1: Option<Claims>, t2: Option<Claims>)
    requires t1.Some? == t2.Some?
    requires t1.Some? ==> t1.value.role == t2.value.role
    ensures Gate(path, t1) == Gate(path, t2)
  {
  }

  /** `/administrator` is behind the admin check too. */
  lemma AdministratorIsGated(token: Claims)
    requires token.role == Some("SALES")
    ensures Gate("/administrator", Some(token)) == Redirect("/sales")
  {
    assert "/administrator"[..4][2] == 'd';
    assert StartsWith("/administrator", "/admin");
  }

  /** The role table covers the whole enum: every stored role other than
      ADMIN has its own dashboard. */
  lemma EveryStaffRoleHasLanding(r: StaffStore.Role)
    requires r != StaffStore.ADMIN
    ensures LandingPath(Some(StaffStore.RoleName(r))) != "/login"
  {
  }

  /** A member who signed in through `authorize` and the jwt callback reaches
      the admin area exactly when their stored role is ADMIN, and is otherwise
      sent to the dashboard of their stored role. */
  lemma SignedInMemberAtAdminArea(store: StaffStore.Store, credentials: Option<Credentials>,
                                  passwordMatches: (string, string) -> bool, token: Claims, path: string)
    requires StaffStore.UniqueNames(store)
    requires Authorize(store, credentials, passwordMatches).Success?
    requires IsAdminArea(path)
    ensures var u := Authorize(store, credentials, passwordMatches).value;
      Gate(path, Some(Jwt(token, Some(u)))) ==
        if u.role == "ADMIN" then Next else Redirect(LandingPath(Some(u.role)))
  {
    var u := Authorize(store, credentials, passwordMatches).value;
    assert StartsWith(path, "/admin");
    assert path[..6][1] == 'a' && path[..6][2] == 'd';
    assert !IsPublic(path);
  }
}

=== FILE: online_registration.dfy ===
/** `/api/online-registration`: the public application form of the courses. */
module OnlineRegistration {
  import opened Wrappers
  import opened Http

  datatype PaymentStatus = PENDING | PAID | FAILED

  /** The store's enum validation of the payment status. */
  function ParsePayment(s: string): (r: Option<PaymentStatus>)
    ensures r.Some? <==> s in {"PENDING", "PAID", "FAILED"}
  {
    if s == "PENDING" then Some(PENDING)
    else if s == "PAID" then Some(PAID)
    else if s == "FAILED" then Some(FAILED)
    else None
  }

  /** One applicant row. */
  datatype Applicant = Applicant(
    id: Id, name: string, email: Option<string>, userImg: Option<string>, phoneNo: string,
    fatherName: string, motherName: string, courseName: string, aadharCardNumber: string,
    aadharBack: string, aadharFront: string, marksheets: seq<string>, address: string,
    paymentStatus: PaymentStatus)

  type Store = map<Id, Applicant>

  /** The unique columns: phone number and Aadhaar card number. */
  predicate Conflicts(store: Store, a: Applicant) {
    exists id :: id in store && (store[id].phoneNo == a.phoneNo || store[id].aadharCardNumber == a.aadharCardNumber)
  }

  /** The form as posted; every field may be missing. */
  datatype Form = Form(
    name: Option<string>, email: Option<string>, userImg: Option<string>, phoneNo: Option<string>,
    fatherName: Option<string>, motherName: Option<string>, courseName: Option<string>,
    aadharCardNumber: Option<string>, aadharBack: Option<string>, aadharFront: Option<string>,
    marksheets: Option<seq<string>>, address: Option<string>, paymentStatus: Option<string>)

  /** The required fields: all but email, photo and payment status. */
  predicate Complete(f: Form) {
    && Truthy(f.name) && Truthy(f.phoneNo) && Truthy(f.fatherName) && Truthy(f.motherName)
    && Truthy(f.courseName) && Truthy(f.aadharCardNumber) && Truthy(f.aadharBack)
    && Truthy(f.aadharFront) && f.marksheets.Some? && |f.marksheets.value| > 0 && Truthy(f.address)
  }

  /** The stored row holds every required field of the form as posted. */
  predicate StoresForm(a: Applicant, f: Form) {
    && f.name == Some(a.name) && f.phoneNo == Some(a.phoneNo) && f.fatherName == Some(a.fatherName)
    && f.motherName == Some(a.motherName) && f.courseName == Some(a.courseName)
    && f.aadharCardNumber == Some(a.aadharCardNumber) && f.aadharBack == Some(a.aadharBack)
    && f.aadharFront == Some(a.aadharFront) && f.marksheets == Some(a.marksheets)
    && f.address == Some(a.address)
  }

  /** POST. A missing payment status becomes PENDING. Every failure of the
      store, a duplicate phone or Aadhaar number included, is answered with
      the same 500. */
  function Submit(store: Store, form: Form, freshId: Id): (r: Outcome<Applicant, Store>)
    ensures !Complete(form) ==> r == Outcome(Reply(BAD_REQUEST, "Missing required fields", None), store)
    ensures Complete(form) ==> r.reply.status in {OK, INTERNAL_ERROR}
    ensures r.reply.status == INTERNAL_ERROR ==> r.reply.message == "Registration failed"
    ensures r.reply.status != OK ==> r.store == store && r.reply.data.None?
    ensures r.reply.status == OK ==>
      && r.reply.data.Some?
      && r.reply.data.value.id == freshId
      && freshId !in store
      && !Conflicts(store, r.reply.data.value)
      && r.store == store[freshId := r.reply.data.value]
      && (form.paymentStatus.None? ==> r.reply.data.value.paymentStatus == PENDING)
      && (form.paymentStatus.Some? ==> ParsePayment(form.paymentStatus.value) == Some(r.reply.data.value.paymentStatus))
      && r.reply.data.value.email == form.email
      && r.reply.data.value.userImg == form.userImg
    ensures r.reply.status == OK ==> StoresForm(r.reply.data.value, form)
    ensures Complete(form) && freshId !in store
         && (form.paymentStatus.None? || ParsePayment(form.paymentStatus.value).Some?)
         && (forall id :: id in store ==>
               (store[id].phoneNo != form.phoneNo.value && store[id].aadharCardNumber != form.aadharCardNumber.value))
         ==> r.reply.status == OK
  {
    if !Complete(form) then
      Outcome(Reply(BAD_REQUEST, "Missing required fields", None), store)
    else
      var payment := if form.paymentStatus.None? then Some(PENDING) else ParsePayment(form.paymentStatus.value);
      if payment.None? then
        Outcome(Reply(INTERNAL_ERROR, "Registration failed", None), store)
      else
        var a := Applicant(freshId, form.name.value, form.email, form.userImg, form.phoneNo.value,
                           form.fatherName.value, form.motherName.value, form.courseName.value,
                           form.aadharCardNumber.value, form.aadharBack.value, form.aadharFront.value,
                           form.marksheets.value, form.address.value, payment.value);
        if freshId in store || Conflicts(store, a) then
          Outcome(Reply(INTERNAL_ERROR, "Registration failed", None), store)
        else
          Outcome(Reply(OK, "Registration successful", Some(a)), store[freshId := a])
  }

  /** E-mail and photo are optional: they never decide the status. */
  lemma OptionalFieldsIgnored(store: Store, form: Form, freshId: Id, email: Option<string>, userImg: Option<string>)
    ensures Submit(store, form, freshId).reply.status
         == Submit(store, form.(email := email, userImg := userImg), freshId).reply.status
  {
  }

  /** A second application that reuses an Aadhaar number already on file
      fails with the generic 500, not a conflict status, even when its phone
      number is new; the first application stays as it was. */
  lemma DuplicateAadharFails(store: Store, form: Form, first: Id, second: Id, phoneNo: string)
    requires Submit(store, form, first).reply.status == OK
    requires phoneNo != ""
    ensures var store1 := Submit(store, form, first).store;
      var r := Submit(store1, form.(phoneNo := Some(phoneNo)), second);
      && r.reply == Reply(INTERNAL_ERROR, "Registration failed", None)
      && r.store == store1
  {
    var store1 := Submit(store, form, first).store;
    assert first in store1 && store1[first].aadharCardNumber == form.aadharCardNumber.value;
  }
}

=== FILE: registrations_page.dfy ===
/** The applicant list of the admin area (`/admin/user`): client-side
    filtering, row selection and the bulk-delete guard. */
module RegistrationsPage {
  import opened Wrappers
  import opened Http
  import opened Strings
  import Seqs

  /** One applicant row as the list holds it. `createdDay` is the creation
      time reduced to a calendar day. */
  datatype Row = Row(id: Id, name: string, userImg: string, courseName: string,
                     paymentStatus: string, createdDay: int)

  /** The filter inputs; an empty date input is None. */
  datatype Filters = Filters(search: string, payment: string, startDay: Option<int>, endDay: Option<int>)

  const NoFilters := Filters("", "", None, None)

  /** The search text occurs, ignoring case, in the name, the course name or
      the payment status. */
  predicate MatchesSearch(u: Row, search: string) {
    || search == ""
    || Contains(ToLower(u.name), ToLower(search))
    || Contains(ToLower(u.courseName), ToLower(search))
    || Contains(ToLower(u.paymentStatus), ToLower(search))
  }

  /** The row passes all four filters; the payment filter is an exact match. */
  predicate Matches(u: Row, f: Filters) {
    && MatchesSearch(u, f.search)
    && (f.payment == "" || u.paymentStatus == f.payment)
    && (f.startDay.None? || u.createdDay >= f.startDay.value)
    && (f.endDay.None? || u.createdDay <= f.endDay.value)
  }

  /** `filteredUsers`: the matching rows, in list order. */
  function Filtered(users: seq<Row>, f: Filters): (r: seq<Row>)
    ensures Seqs.IsSubsequence(r, users)
    ensures forall i :: 0 <= i < |r| ==> Matches(r[i], f)
    ensures forall i :: 0 <= i < |users| && Matches(users[i], f) ==> users[i] in r
    ensures f == NoFilters ==> r == users
    ensures forall u :: multiset(r)[u] == if Matches(u, f) then multiset(users)[u] else 0
  {
    var keep := u => Matches(u, f);
    var r := Seqs.Filter(users, keep);
    Seqs.FilterCounts(users, keep);
    assert f == NoFilters ==> r == users by {
      if f == NoFilters {
        Seqs.FilterAllKept(users, keep);
      }
    }
    r
  }

  /** The selection without any occurrence of `id`. */
  function Without(selected: seq<Id>, id: Id): (r: seq<Id>)
    ensures id !in r
    ensures forall x :: x != id ==> (x in r <==> x in selected)
    ensures Seqs.IsSubsequence(r, selected)
    ensures forall x :: multiset(r)[x] == if x != id then multiset(selected)[x] else 0
  {
    var keep := x => x != id;
    Seqs.FilterCounts(selected, keep);
    Seqs.Filter(selected, keep)
  }

  predicate NoDuplicates(s: seq<Id>) {
    forall i, j :: 0 <= i < j < |s| ==> s[i] != s[j]
  }

  /** `toggleSelectUser`: a selected id is removed, any other id appended. */
  function ToggleSelect(selected: seq<Id>, id: Id): (r: seq<Id>)
    ensures id in r <==> id !in selected
    ensures forall x :: x != id ==> (x in r <==> x in selected)
    ensures id !in selected ==> r == selected + [id]
  {
    if id in selected then Without(selected, id) else selected + [id]
  }

  /** Toggling never introduces a duplicate. */
  lemma {:induction false} ToggleKeepsNoDuplicates(selected: seq<Id>, id: Id)
    requires NoDuplicates(selected)
    ensures NoDuplicates(ToggleSelect(selected, id))
  {
    if id in selected {
      SubsequenceNoDuplicates(Without(selected, id), selected);
    }
  }

  lemma {:induction false} SubsequenceNoDuplicates(s: seq<Id>, t: seq<Id>)
    requires Seqs.IsSubsequence(s, t) && NoDuplicates(t)
    ensures NoDuplicates(s)
    decreases |t|
  {
    if |t| > 0 {
      if |s| > 0 && s[0] == t[0] && Seqs.IsSubsequence(s[1..], t[1..]) {
        SubsequenceNoDuplicates(s[1..], t[1..]);
        SubsequenceMembers(s[1..], t[1..]);
        assert t[0] !in t[1..] by {
          forall j | 0 <= j < |t| - 1 ensures t[1..][j] != t[0] {
            assert t[1..][j] == t[j + 1];
          }
        }
        forall i, j | 0 <= i < j < |s| ensures s[i] != s[j] {
          assert s[j] == s[1..][j - 1];
          if i > 0 { assert s[i] == s[1..][i - 1]; }
        }
      } else {
        SubsequenceNoDuplicates(s, t[1..]);
      }
    }
  }

  lemma {:induction false} SubsequenceMembers(s: seq<Id>, t: seq<Id>)
    requires Seqs.IsSubsequence(s, t)
    ensures forall x :: x in s ==> x in t
    decreases |t|
  {
    if |t| > 0 {
      if |s| > 0 && s[0] == t[0] && Seqs.IsSubsequence(s[1..], t[1..]) {
        SubsequenceMembers(s[1..], t[1..]);
        assert forall x :: x in s ==> x == s[0] || x in s[1..];
      } else {
        SubsequenceMembers(s, t[1..]);
      }
    }
  }

  /** Toggling the same id twice gives back the same set of ids; when the id
      was not selected, it gives back the very same list. */
  lemma ToggleTwice(selected: seq<Id>, id: Id)
    ensures forall x :: x in ToggleSelect(ToggleSelect(selected, id), id) <==> x in selected
    ensures id !in selected ==> ToggleSelect(ToggleSelect(selected, id), id) == selected
  {
    if id !in selected {
      var once := selected + [id];
      Seqs.FilterAllKept(selected, x => x != id);
      FilterAppendDropped(selected, id);
    }
  }

  lemma {:induction false} FilterAppendDropped(s: seq<Id>, id: Id)
    requires id !in s
    ensures Without(s + [id], id) == Without(s, id)
    decreases |s|
  {
    if |s| == 0 {
      assert s + [id] == [id];
      assert [id][1..] == [];
    } else {
      assert (s + [id])[1..] == s[1..] + [id];
      FilterAppendDropped(s[1..], id);
    }
  }

  /** `toggleSelectAll`: when the selection is as long as the filtered list it
      is cleared, otherwise it becomes the filtered ids. */
  function ToggleSelectAll(selected: seq<Id>, filtered: seq<Row>): (r: seq<Id>)
    ensures |selected| == |filtered| ==> r == []
    ensures |selected| != |filtered| ==> |r| == |filtered| && forall i :: 0 <= i < |r| ==> r[i] == filtered[i].id
  {
    if |selected| == |filtered| then [] else seq(|filtered|, i requires 0 <= i < |filtered| => filtered[i].id)
  }

  /** The header checkbox is shown ticked when the selection is as long as a
      non-empty filtered list. */
  predicate HeaderChecked(selected: seq<Id>, filtered: seq<Row>) {
    |selected| == |filtered| && |filtered| > 0
  }

  /** Round trip of the header checkbox: from an empty selection over visible
      rows with distinct ids, one click selects every visible id exactly once
      and ticks the box; a second click clears the selection again. */
  lemma {:induction false} SelectAllRoundTrip(filtered: seq<Row>)
    requires |filtered| > 0
    requires forall i, j :: 0 <= i < j < |filtered| ==> filtered[i].id != filtered[j].id
    ensures var once := ToggleSelectAll([], filtered);
      && (forall i :: 0 <= i < |filtered| ==> filtered[i].id in once)
      && (forall x :: x in once ==> exists i :: 0 <= i < |filtered| && filtered[i].id == x)
      && NoDuplicates(once)
      && HeaderChecked(once, filtered)
      && ToggleSelectAll(once, filtered) == []
      && !HeaderChecked(ToggleSelectAll(once, filtered), filtered)
  {
    var once := ToggleSelectAll([], filtered);
    forall i | 0 <= i < |filtered| ensures filtered[i].id in once {
      assert once[i] == filtered[i].id;
    }
    forall x | x in once ensures exists i :: 0 <= i < |filtered| && filtered[i].id == x {
      var i :| 0 <= i < |once| && once[i] == x;
      assert filtered[i].id == x;
    }
  }

  /** The comparison is on lengths only: one id selected under an earlier
      search and one different row visible now, and the header checkbox
      clears the selection instead of selecting the visible row. */
  lemma ToggleAllComparesLengthsOnly(a: Row, b: Row)
    requires a.id != b.id
    ensures ToggleSelectAll([a.id], [b]) == []
    ensures b.id !in ToggleSelectAll([a.id], [b])
  {
  }

  /** The page state the selection logic works on. */
  datatype Page = Page(users: seq<Row>, selected: seq<Id>, filters: Filters)

  /** A successful fetch replaces the rows and clears the selection. */
  function FetchSucceeded(p: Page, rows: seq<Row>): (r: Page)
    ensures r.users == rows && r.selected == [] && r.filters == p.filters
  {
    p.(users := rows, selected := [])
  }

  /** `handleDeleteUsers`: the ids sent to the delete endpoint, or None when no
      request is sent (nothing selected, or the confirmation declined). */
  function DeleteRequest(selected: seq<Id>, confirmed: bool): (r: Option<seq<Id>>)
    ensures r.Some? <==> |selected| > 0 && confirmed
    ensures r.Some? ==> r.value == selected
  {
    if |selected| == 0 then None
    else if !confirmed then None
    else Some(selected)
  }
}

=== FILE: seqs.dfy ===
/** Sequence operations shared by the list views and the string transforms:
    JavaScript's `Array.prototype.filter`, the subsequence relation it
    establishes, and the counting facts the counters rely on. */
module Seqs {

  /** `s` is `t` with some elements left out, the rest in their original order. */
  predicate IsSubsequence<T(==)>(s: seq<T>, t: seq<T>)
    decreases |t|
  {
    if |t| == 0 then |s| == 0
    else (|s| > 0 && s[0] == t[0] && IsSubsequence(s[1..], t[1..])) || IsSubsequence(s, t[1..])
  }

  /** `s.filter(p)` */
  function Filter<T(==)>(s: seq<T>, p: T -> bool): (r: seq<T>)
    ensures |r| <= |s|
    ensures forall i :: 0 <= i < |r| ==> r[i] in s && p(r[i])
    ensures forall i :: 0 <= i < |s| && p(s[i]) ==> s[i] in r
    ensures IsSubsequence(r, s)
    decreases |s|
  {
    if |s| == 0 then []
    else if p(s[0]) then [s[0]] + Filter(s[1..], p)
    else Filter(s[1..], p)
  }

  /** An element occurs in a sequence exactly when its count there is positive. */
  lemma InIffCounted<T>(s: seq<T>)
    ensures forall x :: x in s <==> multiset(s)[x] > 0
  {
    forall x ensures x in s <==> multiset(s)[x] > 0 {
      assert x in s <==> x in multiset(s);
    }
  }

  /** A sequence that holds each accepted element of `s` as often as `s`
      does, and no rejected one, holds exactly the accepted elements of `s`. */
  lemma CountsGiveMembership<T>(r: seq<T>, s: seq<T>, p: T -> bool)
    requires forall x :: multiset(r)[x] == if p(x) then multiset(s)[x] else 0
    ensures forall x :: x in r ==> x in s && p(x)
    ensures forall i :: 0 <= i < |s| && p(s[i]) ==> s[i] in r
  {
    InIffCounted(r);
    InIffCounted(s);
  }

  /** Filtering a non-empty sequence keeps the head exactly when it is accepted. */
  lemma FilterLength<T>(s: seq<T>, p: T -> bool)
    requires |s| > 0
    ensures |Filter(s, p)| == (if p(s[0]) then 1 else 0) + |Filter(s[1..], p)|
  {
  }

  /** Filtering with a predicate every element satisfies changes nothing. */
  lemma {:induction false} FilterAllKept<T>(s: seq<T>, p: T -> bool)
    requires forall i :: 0 <= i < |s| ==> p(s[i])
    ensures Filter(s, p) == s
    decreases |s|
  {
    if |s| > 0 {
      FilterAllKept(s[1..], p);
    }
  }

  /** Filtering keeps every occurrence of an accepted value and none of a
      rejected one. */
  lemma {:induction false} FilterCounts<T(!new)>(s: seq<T>, p: T -> bool)
    ensures forall x :: multiset(Filter(s, p))[x] == if p(x) then multiset(s)[x] else 0
    decreases |s|
  {
    if |s| > 0 {
      FilterCounts(s[1..], p);
      assert s == [s[0]] + s[1..];
    }
  }

  /** Filtering drops every element the predicate rejects, so one rejected
      element makes the result shorter. */
  lemma {:induction false} FilterDropsRejected<T>(s: seq<T>, p: T -> bool, k: int)
    requires 0 <= k < |s| && !p(s[k])
    ensures |Filter(s, p)| < |s|
    decreases |s|
  {
    if k > 0 {
      FilterDropsRejected(s[1..], p, k - 1);
    }
  }

  /** A subset is no larger than the set it is taken from. */
  lemma SubsetCard<T>(small: set<T>, big: set<T>)
    requires small <= big
    ensures |small| <= |big|
  {
    assert big == small + (big - small);
  }

  /** A sequence has at least as many positions as distinct elements. */
  lemma {:induction false} DistinctBound<T>(s: seq<T>)
    ensures |set i | 0 <= i < |s| :: s[i]| <= |s|
    decreases |s|
  {
    if |s| > 0 {
      var tail := s[1..];
      DistinctBound(tail);
      var all := set i | 0 <= i < |s| :: s[i];
      var rest := set i | 0 <= i < |tail| :: tail[i];
      assert all == rest + {s[0]} by {
        forall x | x in all ensures x in rest + {s[0]} {
          var i :| 0 <= i < |s| && s[i] == x;
          if i > 0 { assert tail[i - 1] == x; }
        }
      }
    }
  }
}

=== FILE: staff_store.dfy ===
/** The staff ("management") table: records, roles, and the uniqueness the
    store enforces on insert. */
module StaffStore {
  import opened Wrappers
  import opened Http

  datatype Role = ADMIN | SALES | TECHNICAL | HR | MEDIA | EMPLOYEE

  /** The enum value as it appears in tokens, sessions and JSON. */
  function RoleName(r: Role): string {
    match r
    case ADMIN => "ADMIN"
    case SALES => "SALES"
    case TECHNICAL => "TECHNICAL"
    case HR => "HR"
    case MEDIA => "MEDIA"
    case EMPLOYEE => "EMPLOYEE"
  }

  /** The store's enum validation: only the six names are roles. */
  function ParseRole(s: string): (r: Option<Role>)
    ensures r.Some? ==> RoleName(r.value) == s
  {
    if s == "ADMIN" then Some(ADMIN)
    else if s == "SALES" then Some(SALES)
    else if s == "TECHNICAL" then Some(TECHNICAL)
    else if s == "HR" then Some(HR)
    else if s == "MEDIA" then Some(MEDIA)
    else if s == "EMPLOYEE" then Some(EMPLOYEE)
    else None
  }

  lemma ParseRoleName(r: Role)
    ensures ParseRole(RoleName(r)) == Some(r)
  {
  }

  /** One staff record; `password` holds the bcrypt hash, never the clear text. */
  datatype Staff = Staff(id: Id, name: string, email: string, password: string, role: Role)

  /** What every response exposes about a staff record: no password. */
  datatype Profile = Profile(id: Id, name: string, email: string, role: Role)

  function ProfileOf(s: Staff): Profile {
    Profile(s.id, s.name, s.email, s.role)
  }

  type Store = map<Id, Staff>

  predicate NameTaken(store: Store, name: string) {
    exists id :: id in store && store[id].name == name
  }

  predicate EmailTaken(store: Store, email: string) {
    exists id :: id in store && store[id].email == email
  }

  predicate UniqueNames(store: Store) {
    forall i, j :: i in store && j in store && store[i].name == store[j].name ==> i == j
  }

  predicate UniqueEmails(store: Store) {
    forall i, j :: i in store && j in store && store[i].email == store[j].email ==> i == j
  }

  /** The table's integrity: the primary key is the record's id, and name and
      email are unique columns. */
  predicate Valid(store: Store) {
    && (forall id :: id in store ==> store[id].id == id)
    && UniqueNames(store)
    && UniqueEmails(store)
  }

  /** `create`: refused when the id, the name or the email is already taken. */
  function Insert(store: Store, s: Staff): (r: Option<Store>)
    ensures r.Some? <==> s.id !in store && !NameTaken(store, s.name) && !EmailTaken(store, s.email)
    ensures r.Some? ==> r.value.Keys == store.Keys + {s.id} && r.value[s.id] == s
    ensures r.Some? ==> forall id :: id in store ==> r.value[id] == store[id]
    ensures r.Some? && Valid(store) ==> Valid(r.value)
  {
    if s.id in store || NameTaken(store, s.name) || EmailTaken(store, s.email) then None
    else Some(store[s.id := s])
  }

  /** `findUnique({ where: { name } })`, meaningful because names are unique. */
  function FindByName(store: Store, name: string): (r: Option<Staff>)
    requires UniqueNames(store)
    ensures r.None? <==> !NameTaken(store, name)
    ensures r.Some? ==> r.value.name == name && exists id :: id in store && store[id] == r.value
  {
    if NameTaken(store, name) then
      var id :| id in store && store[id].name == name;
      Some(store[id])
    else None
  }
}

=== FILE: strings.dfy ===
/** The string primitives the handlers rely on, with JavaScript's meaning:
    the `\s` class (which is also what `String.prototype.trim` strips),
    `startsWith`, `includes` and an ASCII `toLowerCase`. */
module Strings {

  /** JavaScript's `\s`: WhiteSpace and LineTerminator code points. */
  predicate IsSpace(c: char) {
    var n := c as int;
    (9 <= n <= 13) || n == 32 || n == 0xA0 || n == 0x1680 || (0x2000 <= n <= 0x200A)
    || n == 0x2028 || n == 0x2029 || n == 0x202F || n == 0x205F || n == 0x3000 || n == 0xFEFF
  }

  predicate NoSpace(s: string) {
    forall i :: 0 <= i < |s| ==> !IsSpace(s[i])
  }

  predicate AllSpace(s: string) {
    forall i :: 0 <= i < |s| ==> IsSpace(s[i])
  }

  /** `s.startsWith(prefix)` */
  predicate StartsWith(s: string, prefix: string) {
    |prefix| <= |s| && s[..|prefix|] == prefix
  }

  /** `sub` occurs in `s` at offset `i`. */
  predicate OccursAt(s: string, sub: string, i: int) {
    0 <= i <= |s| - |sub| && s[i..i + |sub|] == sub
  }

  /** `s.includes(sub)`: some window of `s` equals `sub`. */
  predicate Contains(s: string, sub: string) {
    exists i :: 0 <= i <= |s| - |sub| && OccursAt(s, sub, i)
  }

  /** A string with no whitespace at either end: what `trim` produces. */
  predicate IsTrimmed(s: string) {
    s == [] || (!IsSpace(s[0]) && !IsSpace(s[|s| - 1]))
  }

  function TrimStart(s: string): (r: string)
    ensures |r| <= |s| && r == s[|s| - |r|..]
    ensures AllSpace(s[..|s| - |r|])
    ensures r == [] || !IsSpace(r[0])
    decreases |s|
  {
    if |s| > 0 && IsSpace(s[0]) then TrimStart(s[1..]) else s
  }

  function TrimEnd(s: string): (r: string)
    ensures |r| <= |s| && r == s[..|r|]
    ensures AllSpace(s[|r|..])
    ensures r == [] || !IsSpace(r[|r| - 1])
    decreases |s|
  {
    if |s| > 0 && IsSpace(s[|s| - 1]) then
      var r := TrimEnd(s[..|s| - 1]);
      assert s[|r|..] == s[..|s| - 1][|r|..] + [s[|s| - 1]];
      r
    else s
  }

  /** `r` is `s[i..i + |r|]` and everything of `s` around it is whitespace. */
  ghost predicate InfixWithSpaceEnds(s: string, r: string, i: int) {
    0 <= i <= |s| - |r| && r == s[i..i + |r|] && AllSpace(s[..i]) && AllSpace(s[i + |r|..])
  }

  /** `s.trim()`: an infix of `s` with whitespace removed only at the ends. */
  function Trim(s: string): (r: string)
    ensures IsTrimmed(r)
    ensures exists i :: InfixWithSpaceEnds(s, r, i)
  {
    var t := TrimStart(s);
    var r := TrimEnd(t);
    TrimInfix(s, t, r);
    r
  }

  lemma TrimInfix(s: string, t: string, r: string)
    requires |t| <= |s| && t == s[|s| - |t|..] && AllSpace(s[..|s| - |t|])
    requires |r| <= |t| && r == t[..|r|] && AllSpace(t[|r|..])
    ensures InfixWithSpaceEnds(s, r, |s| - |t|)
  {
    var i := |s| - |t|;
    assert s[i..i + |r|] == t[..|r|];
    assert s[i + |r|..] == t[|r|..];
  }

  lemma {:induction false} TrimStartOfTrimmed(s: string)
    requires s == [] || !IsSpace(s[0])
    ensures TrimStart(s) == s
  {
  }

  lemma {:induction false} TrimEndOfTrimmed(s: string)
    requires s == [] || !IsSpace(s[|s| - 1])
    ensures TrimEnd(s) == s
  {
  }

  /** Trimming twice is trimming once. */
  lemma TrimIdempotent(s: string)
    ensures Trim(Trim(s)) == Trim(s)
  {
    var r := Trim(s);
    TrimStartOfTrimmed(r);
    TrimEndOfTrimmed(r);
  }

  /** A string trims to "" exactly when it is all whitespace. */
  lemma {:induction false} TrimBlank(s: string)
    ensures Trim(s) == [] <==> AllSpace(s)
  {
    var r := Trim(s);
    var i :| InfixWithSpaceEnds(s, r, i);
    if r == [] {
      forall k | 0 <= k < |s| ensures IsSpace(s[k]) {
        if k < i { assert s[..i][k] == s[k]; } else { assert s[i..][k - i] == s[k]; }
      }
    } else {
      assert s[i] == r[0];
      assert !IsSpace(s[i]);
    }
  }

  predicate IsUpper(c: char) { 'A' <= c <= 'Z' }

  /** ASCII `toLowerCase` of one character. */
  function LowerChar(c: char): (r: char)
    ensures !IsUpper(r)
    ensures IsUpper(c) ==> r as int == c as int + 32
    ensures !IsUpper(c) ==> r == c
  {
    if IsUpper(c) then (c as int + 32) as char else c
  }

  /** ASCII `toLowerCase`. */
  function ToLower(s: string): (r: string)
    ensures |r| == |s|
    ensures forall i :: 0 <= i < |s| ==> r[i] == LowerChar(s[i])
  {
    seq(|s|, i requires 0 <= i < |s| => LowerChar(s[i]))
  }
}

=== FILE: update_role.dfy ===
/** `/api/management/update-role`: an admin changes another member's role. */
module UpdateRole {
  import opened Wrappers
  import opened Http
  import opened StaffStore

  /** Every check passes: fields present, acting member exists and is ADMIN,
      target exists and is not the acting member, role is an enum value. */
  predicate Permitted(store: Store, adminId: Option<string>, userId: Option<string>, role: Option<string>) {
    && Truthy(adminId) && Truthy(userId) && Truthy(role)
    && adminId.value in store && store[adminId.value].role == ADMIN
    && userId.value in store && store[userId.value].id != adminId.value
    && ParseRole(role.value).Some?
  }

  /** POST. The checks run in a fixed order and the first failing one answers;
      only a request passing all of them writes to the store. */
  function ChangeRole(store: Store, adminId: Option<string>, userId: Option<string>, role: Option<string>)
    : (r: Outcome<Profile, Store>)
    ensures !Truthy(adminId) || !Truthy(userId) || !Truthy(role) ==>
      r.reply == Reply(BAD_REQUEST, "All fields are required", None)
    ensures r.reply.status == OK <==> Permitted(store, adminId, userId, role)
    ensures r.reply.status != OK ==> r.store == store && r.reply.data.None?
    ensures r.reply.status == OK ==>
      var target := store[userId.value];
      var updated := target.(role := ParseRole(role.value).value);
      && r.store.Keys == store.Keys
      && r.store[userId.value] == updated
      && (forall id :: id in store && id != userId.value ==> r.store[id] == store[id])
      && r.reply.data == Some(Profile(target.id, target.name, target.email, updated.role))
  {
    if !Truthy(adminId) || !Truthy(userId) || !Truthy(role) then
      Outcome(Reply(BAD_REQUEST, "All fields are required", None), store)
    else if adminId.value !in store then
      Outcome(Reply(NOT_FOUND, "Admin user not found", None), store)
    else if store[adminId.value].role != ADMIN then
      Outcome(Reply(FORBIDDEN, "Unauthorized", None), store)
    else if userId.value !in store then
      Outcome(Reply(NOT_FOUND, "User not found", None), store)
    else if store[userId.value].id == adminId.value then
      Outcome(Reply(BAD_REQUEST, "You cannot change your own role", None), store)
    else
      match ParseRole(role.value)
      case None => Outcome(Reply(INTERNAL_ERROR, "An error occurred during role update", None), store)
      case Some(newRole) =>
        var updated := store[userId.value].(role := newRole);
        Outcome(Reply(OK, "Management user role updated successfully", Some(ProfileOf(updated))),
                store[userId.value := updated])
  }

  /** An actor missing from the store gets 404, one whose stored role is not
      ADMIN gets 403, whatever role the request names. */
  lemma ActorChecked(store: Store, adminId: string, userId: string, role: string)
    requires adminId != "" && userId != "" && role != ""
    ensures adminId !in store ==>
      ChangeRole(store, Some(adminId), Some(userId), Some(role)).reply.status == NOT_FOUND
    ensures adminId in store && store[adminId].role != ADMIN ==>
      ChangeRole(store, Some(adminId), Some(userId), Some(role)).reply.status == FORBIDDEN
  {
  }

  /** A missing target gets 404 once the actor is a stored ADMIN. */
  lemma TargetChecked(store: Store, adminId: string, userId: string, role: string)
    requires adminId != "" && userId != "" && role != ""
    requires adminId in store && store[adminId].role == ADMIN && userId !in store
    ensures ChangeRole(store, Some(adminId), Some(userId), Some(role)).reply == Reply(NOT_FOUND, "User not found", None)
  {
  }

  /** Nobody changes their own role: an ADMIN gets 400, a non-admin already
      fails the role check with 403, and the store never changes. */
  lemma NoSelfChange(store: Store, id: string, role: string)
    requires Valid(store) && id in store && id != ""
    requires role != ""
    ensures var r := ChangeRole(store, Some(id), Some(id), Some(role));
      && r.store == store
      && (store[id].role == ADMIN ==> r.reply == Reply(BAD_REQUEST, "You cannot change your own role", None))
      && (store[id].role != ADMIN ==> r.reply.status == FORBIDDEN)
  {
  }

  /** Changing a role keeps the table's integrity. */
  lemma ChangeRoleKeepsStoreValid(store: Store, adminId: Option<string>, userId: Option<string>, role: Option<string>)
    requires Valid(store)
    ensures Valid(ChangeRole(store, adminId, userId, role).store)
  {
    var r := ChangeRole(store, adminId, userId, role);
    if r.reply.status == OK {
      var u := userId.value;
      forall i, j | i in r.store && j in r.store && r.store[i].name == r.store[j].name ensures i == j {
        assert store[i].name == r.store[i].name && store[j].name == r.store[j].name;
      }
      forall i, j | i in r.store && j in r.store && r.store[i].email == r.store[j].email ensures i == j {
        assert store[i].email == r.store[i].email && store[j].email == r.store[j].email;
      }
    }
  }
}

=== FILE: wrappers.dfy ===
/** Optional values and fallible results, used wherever a request field may be
    absent or a step of a handler may fail. */
module Wrappers {

  datatype Option<+T> = None | Some(value: T) {

    /** The value in Some, or `default` when None (the `??` and parameter-default
        operators of the source). */
    function GetOr(default: T): (r: T)
      ensures Some? ==> r == value
      ensures None? ==> r == default
    {
      match this
      case Some(v) => v
      case None => default
    }
  }

  datatype Result<+R, +E> = Success(value: R) | Failure(error: E)
}
